=== FILE: README.md ===
# HAR analyzer and AI review, modelled in Dafny

This project models the two pure pieces of the HAR analyzer web app.

- **`parse_har`** (`har_analyzer.py`) takes a decoded HTTP Archive document.
  - It turns every entry of `log.entries` into one request record, with a fallback for each field.
  - It folds the records into a summary: count, total and average time, a status-class histogram over classes 1..5, and success and failure counts.
- **`format_ai_paragraph`** (`har_analyzer.py`) turns the `suggests` text of an AI review into an HTML ordered list.
  - It cuts the text at `\d+\.\s+`, strips the pieces and drops the empty ones.
  - It rewrites each `**x**` as `<strong>x</strong>` and wraps every piece in `<li>…</li>`.
- **The report shape** `Output_Builder` with its nested `PB_builder` (`har_analyzer.py`).
  - The model has a datatype, a validator over decoded JSON (`model_validate`), and `model_dump` as the validator's inverse.
- **`Gemini.call_gemini_JSON`** (`call_gemini.py`), without the model call itself:
  - how the prompt is put together;
  - the ladder that turns the reply text into a dictionary: parse; else clean and parse again; else wrap as `{"raw": text}`; then an optional schema validation that falls back to the unvalidated data.

Python's semantics are written out where the code relies on them.

- Exceptions are a `Result`. `dict.get` on a non-dict raises AttributeError, and `float(None)` raises TypeError.
- `or` and truthiness are modelled explicitly.
- `int()` of a float truncates toward zero.
- `//` by 100 floors. Dafny's `/` by a positive divisor agrees, also for negative statuses.
- `str.strip()` and the regex class `\s` both use the 29 characters for which `str.isspace()` holds.
- `re.split` and the non-greedy `re.sub` are written as scans.

Modules, in dependency order:

- `Wrappers`: `Option` and `Result`.
- `JsonValues`: the decoded JSON value.
- `PyOps`: `get`, `or`, `float`, `int`, `[0]`.
- `PyStr`: `strip`.
- `Traverse`: a loop that may raise.
- `HarRecords`: one entry.
- `HarSummary`: the summary.
- `HarParse`: `parse_har`.
- `ParagraphSplit` and `AiParagraph`: `format_ai_paragraph`.
- `ReportSchema`: the report shape.
- `Gemini`: the ladder.

In a few places the code does less than its own defaults and comments suggest. The model follows the code:

- The `.get(key, default)` calls read as if a missing or malformed field falls back to a default. `.get` falls back only when the key is missing. The fields guarded by `or` (status, content, size, headers, postData, the `wait` fallback and the five timing phases) also fall back when falsy. Fields copied through (method, url, mimeType, the header `value`, the postData `text`, statusText and a truthy size) keep their value whatever its kind. Elsewhere a value of the wrong kind raises.
  - For example: a `request`, `response` or `timings` that is not a dict, `null` included; a present `time` that `float()` refuses, such as `null`, `"abc"` or a list; a truthy status or timing phase that `int()` or `float()` refuses; a truthy non-dict `content` or `postData`; or headers whose first item is not a dict.
  - `HarRecords.ParseEntryAcceptsIff` states exactly which entries get through.
  - `HarParse.AnalyzeAcceptsIff` states which documents get through; any exception aborts the whole call.
- The comment at har_analyzer.py:58 prefers the entry-level `time` "if present" and falls back to `wait`. The code tests for the key, not for a usable value: a `time` of 0 wins over `wait` (`HarRecords.ZeroTimeWinsOverWait`), and a `time` of `null` raises (`HarRecords.NullTimeRaises`).
- Times and sizes are copied unclamped; HAR allows `-1` for `dns` and `connect`. The model claims no sign.
- The comment at call_gemini.py:55 says code fences are stripped. That holds only for a fence without a language tag: a reply fenced with ```` ```json ```` keeps `json` in front after cleaning and ends up wrapped as `{"raw": …}` (`Gemini.TaggedReplyWrapped`). Comments inside the reply are not stripped at all.

## Model

| member | source | states |
|---|---|---|
| HarRecords.ParseEntryAcceptsIff | har_analyzer.py:53-86 | An entry is normalised without raising exactly when it satisfies `EntryOk`: it is a dict; `request`, `response` and `timings` are dicts when present; `time` converts to float when present; status, content, headers, postData and the five phases are each missing, falsy or of the kind the code uses them as. |
| HarRecords.ParseEntryTime | har_analyzer.py:59 | `time_taken` is `float(time)` whenever the key `time` is present, even when it is 0; otherwise it is `float` of a truthy `timings.wait`, else 0. |
| HarRecords.ZeroTimeWinsOverWait | har_analyzer.py:59 | An entry with `time` 0 and `timings.wait` 120 gets time 0. |
| HarRecords.NullTimeRaises | har_analyzer.py:59 | An entry `{"time": null}` raises TypeError instead of falling back. |
| HarRecords.ParseEntryStatus | har_analyzer.py:61-76 | The status is `int()` of a truthy `response.status`, else 0. Method and URL default to "GET" and "N/A". `statusText` is kept for statuses of 400 and above, and the error message is None below 400. |
| HarRecords.ParseEntryContent | har_analyzer.py:72-78 | Content type and size come from a truthy `response.content`, which must then be a dict. The size falls back to 0 when it is falsy. Without content they are "N/A" and 0. |
| HarRecords.ParseEntryRequest | har_analyzer.py:75-77 | The source IP is `value` of the first header, and the payload is `postData.text`. Both are "N/A" when their container is missing or falsy. |
| HarRecords.ParseEntryTimings | har_analyzer.py:79-85 | Each of dns, connect, send, wait and receive is `float` of its truthy value, else 0. |
| HarRecords.EmptyEntryDefaults | har_analyzer.py:54-85 | The empty entry `{}` gets every documented default. |
| HarSummary.StatusClass | har_analyzer.py:62 | The class `c` of a status is the floor quotient: `100*c <= status < 100*c + 100`. |
| HarSummary.TallyCounts | har_analyzer.py:51-64 | For each class 1..5, the histogram holds the number of records of that class. |
| HarSummary.ClassCountsBounded | har_analyzer.py:62-64 | The per-class counts of classes 1..5 add up to at most the number of records. |
| HarSummary.SummaryFacts | har_analyzer.py:88-95 | The summary's count is the number of records. The histogram has keys 1..5, each counting its class, with sum at most N. Success is class 2 and failure is classes 4 and 5, together at most N. The average is total/N for N > 0 and 0 for no records. |
| Traverse.MapResultSpec | har_analyzer.py:53-86 | The loop succeeds exactly when every entry does. It then gives one result per entry, in order; otherwise the first failing entry's exception is the result. |
| HarParse.EntriesOfIff | har_analyzer.py:48-54 | The loop gets past iterating `log.entries` and its first `entry.get` exactly when the document and `log` are dicts and the entries are a list, `{}` or `""`. The entries are then the list's items, and none for the other two. A non-empty dict or string is iterated, but yields strings, so its first `entry.get` raises AttributeError; anything else raises TypeError. |
| HarParse.NormalizeAcceptsIff | har_analyzer.py:53-86 | Normalising a list of entries succeeds exactly when every entry satisfies `EntryOk`. |
| HarParse.AnalyzeAcceptsIff | har_analyzer.py:48-86 | `parse_har` returns, rather than raising, exactly on the documents of `HarOk`. |
| HarParse.AnalyzeRecords | har_analyzer.py:48-86 | A successful call gives exactly one record per entry, in entry order, each the normalisation of its entry. |
| HarParse.AnalyzeSummary | har_analyzer.py:88-95 | `total_requests` is the number of entries. Success plus failure and the histogram's sum are at most that number. The average is total/N, or 0 for no entries. |
| HarParse.SummarizeEntries | har_analyzer.py:49-95 | The loop that appends records while accumulating time and the histogram returns the records and summary of the reference traversal, or the first entry's exception. |
| HarParse.ParseHar | har_analyzer.py:43-97 | `parse_har` on a decoded document equals the reference `Analyze`, errors included. |
| HarParse.TwoEntryExample | har_analyzer.py:48-95 | Entries with statuses 200 and 404 and times 100 and 50 give total 150, average 75, histogram {2: 1, 4: 1}, one success and one failure. |
| ParagraphSplit.MarkerLengthIsMarker | har_analyzer.py:29 | A match found at the start is a whole `\d+\.\s+`, greedy in its whitespace: no whitespace follows it. |
| ParagraphSplit.SplitRoundTrip | har_analyzer.py:29 | Splitting loses nothing: there is one more piece than markers, every marker matches `\d+\.\s+`, and interleaving pieces and markers gives back the text. |
| ParagraphSplit.SplitPiecesHaveNoMarker | har_analyzer.py:29 | No marker starts inside a piece taken on its own. |
| ParagraphSplit.LongestMarker | har_analyzer.py:29 | Any match of `\d+\.\s+` at the start of a text is at most as long as the one found there: a marker at the start is always found, at its longest. |
| ParagraphSplit.SplitIsLeftmostLongest | har_analyzer.py:29 | The cuts are leftmost and longest: from any position inside a piece, reading on into the rest of the text, no marker starts, and every cut is the whole match that starts where it does. |
| ParagraphSplit.CutsAreGreedy | har_analyzer.py:29 | Every cut is followed by the end of the text or by a character other than whitespace. |
| ParagraphSplit.SplitWithoutDigits | har_analyzer.py:29 | A text without digits is not cut. |
| ParagraphSplit.TwoItemSplit | har_analyzer.py:29 | `d1. ` + x + `d2. ` + y, the second marker directly after x, with x and y digit-free and not starting with whitespace, splits into `""`, `x` and `y`. |
| ParagraphSplit.StrippedNonEmpty | har_analyzer.py:31 | The kept points number at most the pieces, are non-empty, and neither start nor end with whitespace. |
| ParagraphSplit.StrippedSingle | har_analyzer.py:31 | One piece gives its stripped self when that is non-empty, and nothing otherwise. |
| ParagraphSplit.StrippedNonEmptyConcat | har_analyzer.py:31 | The points of two runs of pieces are the points of the first run followed by those of the second; with the single-piece case this fixes the points as the non-empty stripped pieces, in order. |
| ParagraphSplit.PointsKeepAbsence | har_analyzer.py:29-31 | A character missing from the paragraph is missing from every point. |
| PyStr.StripCharsIsSlice | har_analyzer.py:31 | `strip` returns the slice between the leading and the trailing run of stripped characters, and its ends are not stripped characters. |
| PyStr.StripCharsEmptyIff | har_analyzer.py:31 | A piece strips to the empty string exactly when it is all whitespace. |
| AiParagraph.CloseAt | har_analyzer.py:37 | The closing `**` is the first `**` after the opening one, with no newline in between. When there is none, every later `**` has a newline before it. |
| AiParagraph.EmphasizeRoundTrip | har_analyzer.py:37 | On text without `<`, turning the written `<strong>` and `</strong>` tags back into `**` gives the text again. |
| AiParagraph.EmphasizeWithoutStars | har_analyzer.py:37 | Text without `**` is left unchanged. |
| AiParagraph.EmphasizeUnclosed | har_analyzer.py:37 | An opening `**` whose close is missing, or lies past a newline, stays as written: text in which no `**` is closed on its own line is unchanged. |
| AiParagraph.EmphasizeCopiesPrefix | har_analyzer.py:37 | Text before a span is copied unchanged: when no `**` starting in the prefix opens a span closed on its line, the rewrite of prefix + rest is the prefix followed by the rewrite of the rest. |
| AiParagraph.EmphasizePlainPrefix | har_analyzer.py:37 | A prefix without `*` is copied unchanged, and the rewrite goes on with the rest. |
| AiParagraph.EmphasizeMidSpan | har_analyzer.py:37 | `p**x**z`, with no `*` in `p`, no newline or `**` in `x`, `x` not ending in `*`, and no `**` in `z`, becomes `p<strong>x</strong>z`. |
| AiParagraph.MidTextSpan | har_analyzer.py:37 | `Do **this** now` becomes `Do <strong>this</strong> now`. |
| AiParagraph.EmphasizeSpan | har_analyzer.py:37 | `**x**`, with no newline or `**` in `x` and `x` not ending in `*`, becomes `<strong>x</strong>`, and the rewrite continues after it. |
| AiParagraph.FormatAiParagraph | har_analyzer.py:41 | The output starts with `<ol>` and ends with `</ol>`. |
| AiParagraph.ParseItemsRoundTrip | har_analyzer.py:34-38 | Reading back the `<li>` items written for points without `<` gives the points. |
| AiParagraph.FormatRoundTrip | har_analyzer.py:27-41 | For a paragraph without `<`, the list holds one `<li>` per non-empty stripped point, in order: reading it back, with the `<strong>` tags turned back into `**`, recovers exactly those points. |
| AiParagraph.WhitespaceOnlyIsEmptyList | har_analyzer.py:27-41 | A whitespace-only paragraph gives `<ol></ol>`. |
| AiParagraph.FormatTwoPoints | har_analyzer.py:27-41 | `d. x d. **y**z`, with digit-free `x`, `y` and `z` and no `**` inside them, gives `<ol><li>x</li><li><strong>y</strong>z</li></ol>`. |
| AiParagraph.TwoPointExample | har_analyzer.py:27-41 | `1. Do X. 2. **Do Y**.` gives `<ol><li>Do X.</li><li><strong>Do Y</strong>.</li></ol>`. |
| ReportSchema.StrList | har_analyzer.py:14-16 | `list[str]` accepts exactly arrays of strings, and the accepted strings rebuild the array. |
| ReportSchema.ValidateAcceptsIff | har_analyzer.py:13-25 | `model_validate` accepts exactly the dicts that have every declared field with its declared type, the nested model included. |
| ReportSchema.ValidateThenDump | har_analyzer.py:13-25 | Dumping a validated report gives exactly the declared fields of the input, nested ones included; undeclared keys are dropped. |
| ReportSchema.DumpValidateRoundTrip | har_analyzer.py:13-25 | Validating a dumped report gives the same report back. |
| ReportSchema.ExtraKeyIgnored | har_analyzer.py:18-25 | Adding an undeclared key does not change the outcome of validation. |
| ReportSchema.Dump | har_analyzer.py:18-25 | A dumped report has exactly the seven declared keys. |
| ReportSchema.ValidateAndDump | call_gemini.py:64-66 | Validate-then-dump succeeds exactly on conforming data. Its result is the declared fields of the data, conforms again and validates to the same report. |
| Gemini.FullPrompt | call_gemini.py:26 | The full prompt ends with the prompt. It equals the prompt exactly when the system message is None or empty. |
| Gemini.PromptHeader | call_gemini.py:26 | A non-empty system message contributes the slice of it without its outer whitespace, then a blank line, then the prompt. |
| Gemini.CleanIsSlice | call_gemini.py:56 | Cleaning only removes whitespace and backticks, and only at the ends of the reply. |
| Gemini.CleanUnfences | call_gemini.py:56 | A reply of surrounding whitespace and backtick fences around a body cleans to exactly the body. |
| Gemini.TaggedFenceKeepsTag | call_gemini.py:56 | A reply starting with ```` ```json ```` still starts with `json` after cleaning. |
| Gemini.Decode | call_gemini.py:52-60 | A reply that parses gives its parse. Otherwise a cleaned reply that parses gives that parse. When neither parses, the result is `{"raw": reply}` with the reply untrimmed. |
| Gemini.DecodeOutcomes | call_gemini.py:52-60 | The data is always the parse of the reply, the parse of the cleaned reply, or the wrapped reply. |
| Gemini.ParsedReplySkipsRecovery | call_gemini.py:52-53 | When the reply parses, the recovery parse is never consulted: parsers that agree on the reply give the same data. |
| Gemini.FencedReplyRecovered | call_gemini.py:52-58 | A fenced reply without a language tag that does not parse whole gives the parse of its body. |
| Gemini.TaggedReplyWrapped | call_gemini.py:52-60 | A reply fenced with ```` ```json ```` is wrapped as `{"raw": reply}` when no JSON text starts with a backtick or `j`. |
| Gemini.CallGeminiJson | call_gemini.py:49-50 | Missing or empty reply text gives `{}`, with or without a schema. |
| Gemini.CallOutcomes | call_gemini.py:62-70 | Without a schema the result is the data. With one, it is the validated value when validation succeeds, and the data unchanged when it fails. `{}` comes only from data that is `{}` or validates to `{}`. |
| Gemini.ReviewReplyShape | call_gemini.py:62-68 | With the report schema, the result has the report shape exactly when there was text and its data had the shape. A shaped result is exactly the declared fields of the data, undeclared keys dropped at both levels, and validates to the same report; any other result is the data untouched. |
| Gemini.ReviewReplyFallbacks | call_gemini.py:49-68 | With the report schema, the result is `{}` exactly when there was no text or the data was `{}`. A reply that parses nowhere comes back as `{"raw": reply}`. |

## Left out

- The Flask app, its routes and templates, and the shared fixed upload path (har_analyzer.py:1-11, 99-165). They are HTTP and file I/O glue.
  - This includes the system message the review route builds.
  - It includes the `json.dumps` of the payload that becomes the prompt.
  - It includes the unchecked `response_data["suggests"]` access, which raises KeyError when the reply lacks the field.
- Opening the HAR file and `json.load` (har_analyzer.py:44-45). `parse_har` is modelled on the decoded document, and a decode error is plain propagation.
- The Gemini client, `generate_content`, `dotenv`, and extracting the text from the SDK's response object (call_gemini.py:1-11, 28-47). These are foreign calls: the reply text is an `Option<string>` input.
  - The `inline_data` fallback of line 45 is not modelled. It yields an SDK blob, not text: the blob is truthy, `json.loads` rejects it, and `raw_text.strip()` on line 56 then raises AttributeError inside the handler, which escapes `call_gemini_JSON`. The model never raises here only because it types the reply as a string.
- The `response_schema` hint sent to the model (call_gemini.py:15-24, 33). It influences only the external model, not the deterministic code.
- `json.loads` is a parameter `string -> Option<Json>`. JSON syntax is not modelled.
- Pydantic's internals. The validator models what `Output_Builder` accepts from JSON input: an array of strings for `list[str]` and a string for `str`, with extra keys ignored.
- `float()` and `int()` of strings are supplied as a parameter (`NumParse`). Python's number syntax is not modelled.
- Floating-point arithmetic. Times are reals, so rounding, NaN and infinities are not modelled.
  - `average_time` of an empty trace is the integer 0 in the code and 0.0 in the model.
- AiParagraph.FormatRoundTrip: proved only for a paragraph without `<`. Reading the list back cannot tell a `<strong>` or `</li>` the code wrote from one already in the text, and a `</li>` inside a point would end its item early. Emphasis on any text is stated by `AiParagraph.EmphasizeSpan` and `AiParagraph.EmphasizeUnclosed`.
- `\d` matches only the ASCII digits here. Python's `\d` also matches other Unicode decimal digits.
- The key order of Python dictionaries, and the other keys of a dumped record. A record is a datatype, not a dict.

=== FILE: gemini.dfy ===
/** The deterministic part of `Gemini.call_gemini_JSON`: how the prompt is
    put together, and how the model's raw reply text becomes a dictionary
    through a parse, a recovery parse, a fallback wrapper and an optional
    schema check. */
module Gemini {
  import opened Wrappers
  import opened JsonValues
  import opened PyStr
  import opened ReportSchema

  /** The prompt sent to the model.  The constructor stores
      `system_message or ""`; a non-empty message is stripped and put in
      front of the prompt, separated by a blank line. */
  function FullPrompt(systemMessage: Option<string>, prompt: string): (full: string)
    ensures |full| >= |prompt| && full[|full| - |prompt|..] == prompt
    ensures full == prompt <==> systemMessage.None? || systemMessage.value == ""
  {
    var message := systemMessage.GetOr("");
    if message != "" then Strip(message) + "\n\n" + prompt else prompt
  }

  /** A non-empty system message contributes its text without surrounding
      whitespace, then a blank line: nothing of the message but its outer
      whitespace is lost. */
  lemma PromptHeader(message: string, prompt: string) returns (i: nat, j: nat)
    requires message != ""
    ensures i <= j <= |message|
    ensures FullPrompt(Some(message), prompt) == message[i..j] + "\n\n" + prompt
    ensures forall k :: 0 <= k < i ==> message[k] in Whitespace
    ensures forall k :: j <= k < |message| ==> message[k] in Whitespace
    ensures i < j ==> message[i] !in Whitespace && message[j - 1] !in Whitespace
  {
    i, j := StripCharsIsSlice(message, Whitespace);
  }

  const Backtick: set<char> := {'`'}

  /** A character the cleaning step may remove from an end. */
  predicate Cleanable(c: char) {
    c in Whitespace || c == '`'
  }

  /** `raw_text.strip().strip("`")`: outer whitespace, then outer backticks. */
  function Clean(raw: string): string {
    StripChars(Strip(raw), Backtick)
  }

  /** The cleaned text is a slice of the reply: only whitespace and
      backticks are removed, and only at the ends. */
  lemma CleanIsSlice(raw: string) returns (i: nat, j: nat)
    ensures i <= j <= |raw| && Clean(raw) == raw[i..j]
    ensures forall k :: 0 <= k < i ==> Cleanable(raw[k])
    ensures forall k :: j <= k < |raw| ==> Cleanable(raw[k])
  {
    i, j := StripTwiceIsSlice(raw, Whitespace, Backtick);
  }

  /** A reply wrapped in a code fence without a language tag, with any
      whitespace around it, cleans to exactly the fenced text. */
  lemma CleanUnfences(lead: string, open: string, body: string, close: string, trail: string)
    requires forall k :: 0 <= k < |lead| ==> lead[k] in Whitespace
    requires forall k :: 0 <= k < |trail| ==> trail[k] in Whitespace
    requires forall k :: 0 <= k < |open| ==> open[k] == '`'
    requires forall k :: 0 <= k < |close| ==> close[k] == '`'
    requires |body| > 0
    requires !Cleanable(body[0]) && !Cleanable(body[|body| - 1])
    ensures Clean(lead + open + body + close + trail) == body
  {
    assert '`' !in Whitespace;
    StripTwiceUnwraps(lead, open, body, close, trail, Whitespace, Backtick);
  }

  /** The quirk of a fence with a language tag: only backticks are stripped,
      so the cleaned text still starts with `json`. */
  lemma TaggedFenceKeepsTag(reply: string)
    requires |reply| >= 7 && reply[..7] == "```json"
    ensures var cleaned := Clean(reply);
      |cleaned| >= 4 && cleaned[..4] == "json"
  {
    assert '`' !in Whitespace && 'n' !in Whitespace;
    StripTwiceKeepsTag(reply, Whitespace, Backtick);
  }

  /** `{"raw": raw_text}`. */
  function RawWrapper(raw: string): Json {
    JObj(map["raw" := JStr(raw)])
  }

  /** Lines 52-60: the reply as parsed, else as parsed after cleaning, else
      wrapped unparsed.  `parse` stands for `json.loads`, `None` for the
      exception it raises. */
  function Decode(raw: string, parse: string -> Option<Json>): (data: Json)
    ensures parse(raw).Some? ==> data == parse(raw).value
    ensures parse(raw).None? && parse(Clean(raw)).Some? ==> data == parse(Clean(raw)).value
    ensures parse(raw).None? && parse(Clean(raw)).None? ==> data == RawWrapper(raw)
  {
    match parse(raw)
    case Some(d) => d
    case None =>
      match parse(Clean(raw))
      case Some(d) => d
      case None => RawWrapper(raw)
  }

  /** `call_gemini_JSON` after the model call.  `rawText` is the extracted
      reply text (`None` when there is none); `scheme` is the optional
      validate-then-dump step, `None` inside it standing for a validation
      error. */
  function CallGeminiJson(rawText: Option<string>, parse: string -> Option<Json>,
                          scheme: Option<Json -> Option<Json>>): (r: Json)
    ensures rawText.None? || rawText.value == "" ==> r == EmptyObject
  {
    if rawText.None? || rawText.value == "" then EmptyObject
    else
      var data := Decode(rawText.value, parse);
      if scheme.Some? then scheme.value(data).GetOr(data) else data
  }

  /** The reply that parses on its own is returned as is: the recovery
      parse is never consulted. */
  lemma ParsedReplySkipsRecovery(raw: string, p1: string -> Option<Json>, p2: string -> Option<Json>)
    requires p1(raw).Some? && p1(raw) == p2(raw)
    ensures Decode(raw, p1) == Decode(raw, p2)
  {
  }

  /** The data is one of the three outcomes of the ladder: a parse of the
      reply, a parse of the cleaned reply, or the reply wrapped whole. */
  lemma DecodeOutcomes(raw: string, parse: string -> Option<Json>)
    ensures parse(raw) == Some(Decode(raw, parse))
      || parse(Clean(raw)) == Some(Decode(raw, parse))
      || Decode(raw, parse) == RawWrapper(raw)
  {
  }

  /** A fenced reply without a language tag is recovered: its data is the
      parse of the fenced text. */
  lemma FencedReplyRecovered(lead: string, open: string, body: string, close: string, trail: string,
                             parse: string -> Option<Json>)
    requires forall k :: 0 <= k < |lead| ==> lead[k] in Whitespace
    requires forall k :: 0 <= k < |trail| ==> trail[k] in Whitespace
    requires forall k :: 0 <= k < |open| ==> open[k] == '`'
    requires forall k :: 0 <= k < |close| ==> close[k] == '`'
    requires |body| > 0
    requires !Cleanable(body[0]) && !Cleanable(body[|body| - 1])
    requires parse(lead + open + body + close + trail).None? && parse(body).Some?
    ensures Decode(lead + open + body + close + trail, parse) == parse(body).value
  {
    CleanUnfences(lead, open, body, close, trail);
  }

  /** A reply fenced with a language tag is not recovered when no JSON text
      starts with a backtick or with `j`: the data is the whole reply,
      wrapped. */
  lemma TaggedReplyWrapped(reply: string, parse: string -> Option<Json>)
    requires |reply| >= 7 && reply[..7] == "```json"
    requires forall t :: |t| > 0 && (t[0] == '`' || t[0] == 'j') ==> parse(t).None?
    ensures Decode(reply, parse) == RawWrapper(reply)
  {
    TaggedFenceKeepsTag(reply);
    assert reply[0] == '`';
    assert Clean(reply)[0] == 'j';
  }

  /** With no schema the result is the decoded data; with one it is the
      validated value when validation succeeds and the same data when it
      fails.  So a non-empty reply only becomes `{}` when its data is `{}`
      or the schema turns it into `{}`. */
  lemma CallOutcomes(rawText: Option<string>, parse: string -> Option<Json>,
                     scheme: Option<Json -> Option<Json>>)
    requires rawText.Some? && rawText.value != ""
    ensures var data := Decode(rawText.value, parse);
      var r := CallGeminiJson(rawText, parse, scheme);
      && (scheme.None? ==> r == data)
      && (scheme.Some? && scheme.value(data).Some? ==> r == scheme.value(data).value)
      && (scheme.Some? && scheme.value(data).None? ==> r == data)
      && (r == EmptyObject ==> data == EmptyObject || (scheme.Some? && scheme.value(data) == Some(EmptyObject)))
  {
  }

  /** The call the AI review makes: `scheme=Output_Builder`. */
  function ReviewReply(rawText: Option<string>, parse: string -> Option<Json>): Json {
    CallGeminiJson(rawText, parse, Some(ValidateAndDump))
  }

  /** The review reply has the report shape exactly when there was text and
      its data had the shape.  The shaped reply is the canonical dump of the
      same report: the declared fields of the data, undeclared keys dropped
      at both levels.  Any other reply is the data untouched. */
  lemma ReviewReplyShape(rawText: Option<string>, parse: string -> Option<Json>)
    ensures var r := ReviewReply(rawText, parse);
      Conforms(r) <==> rawText.Some? && rawText.value != "" && Conforms(Decode(rawText.value, parse))
    ensures rawText.Some? && rawText.value != "" ==>
      var data := Decode(rawText.value, parse);
      var r := ReviewReply(rawText, parse);
      (Conforms(data) ==> r == Declared(data) && Validate(r) == Validate(data) && r.fields.Keys == ReportKeys)
      && (!Conforms(data) ==> r == data)
  {
    if rawText.Some? && rawText.value != "" {
      var data := Decode(rawText.value, parse);
      if Conforms(data) {
        ValidateAcceptsIff(data);
        ValidateThenDump(data);
        DumpValidateRoundTrip(Validate(data).value);
      }
    }
  }

  /** The review reply is `{}` exactly when there was no text or the text
      decoded to `{}`; a reply that parses nowhere comes back wrapped,
      untrimmed. */
  lemma ReviewReplyFallbacks(rawText: Option<string>, parse: string -> Option<Json>)
    ensures ReviewReply(rawText, parse) == EmptyObject <==>
      rawText.None? || rawText.value == "" || Decode(rawText.value, parse) == EmptyObject
    ensures (rawText.Some? && rawText.value != ""
      && parse(rawText.value).None? && parse(Clean(rawText.value)).None?) ==>
      ReviewReply(rawText, parse) == RawWrapper(rawText.value)
  {
    assert !Conforms(EmptyObject);
    forall raw | true
      ensures !Conforms(RawWrapper(raw))
    {
      assert "load_failures" !in RawWrapper(raw).fields;
    }
  }
}

=== FILE: har_parse.dfy ===
/** `parse_har` on an already decoded document: find `log.entries`,
    normalise every entry in order, and summarise the records.  Any
    exception raised on the way aborts the whole call, so there is never a
    partial result. */
module HarParse {
  import opened Wrappers
  import opened JsonValues
  import opened PyOps
  import opened HarRecords
  import opened HarSummary
  import opened Traverse

  datatype Analysis = Analysis(records: seq<Record>, summary: Summary)

  /** `for entry in entries`: a list yields its items.  An empty dict or
      string yields nothing; a non-empty one yields strings, on which the
      first `entry.get` raises; anything else is not iterable. */
  function Iterate(entries: Json): Result<seq<Json>, PyError> {
    match entries
    case JArr(xs) => Success(xs)
    case JObj(m) => if |m| == 0 then Success([]) else Failure(AttributeError)
    case JStr(s) => if |s| == 0 then Success([]) else Failure(AttributeError)
    case _ => Failure(TypeError)
  }

  /** `har.get('log', {}).get('entries', [])`, then iterated. */
  function EntriesOf(har: Json): Result<seq<Json>, PyError> {
    var log :- Get(har, "log", EmptyObject);
    var entries :- Get(log, "entries", JArr([]));
    Iterate(entries)
  }

  /** `ParseEntry` with the string parsers fixed. */
  function EntryParser(np: NumParse): Json -> Result<Record, PyError> {
    e => ParseEntry(e, np)
  }

  /** The records of `entries`, built front to back; the first entry that
      raises decides the error. */
  function Normalize(es: seq<Json>, np: NumParse): Result<seq<Record>, PyError> {
    MapResult(es, EntryParser(np))
  }

  /** The reference for `parse_har`. */
  function Analyze(har: Json, np: NumParse): Result<Analysis, PyError> {
    var entries :- EntriesOf(har);
    var records :- Normalize(entries, np);
    Success(Analysis(records, Summarize(records)))
  }

  /** The documents `parse_har` gets through without raising. */
  predicate HarOk(har: Json, np: NumParse) {
    && har.JObj?
    && var log := FieldOr(har, "log", EmptyObject);
    && log.JObj?
    && var entries := FieldOr(log, "entries", JArr([]));
    && (|| (entries.JArr? && forall i :: 0 <= i < |entries.items| ==> EntryOk(entries.items[i], np))
        || entries == EmptyObject
        || entries == JStr(""))
  }

  /** Where the loop gets past iterating `log.entries` and the first
      `entry.get`: a non-empty dict or string is iterable, but yields
      strings, on which that first `entry.get` raises. */
  lemma EntriesOfIff(har: Json)
    ensures EntriesOf(har).Success? <==>
      && har.JObj?
      && var log := FieldOr(har, "log", EmptyObject);
      && log.JObj?
      && var entries := FieldOr(log, "entries", JArr([]));
      && (entries.JArr? || entries == EmptyObject || entries == JStr(""))
    ensures EntriesOf(har).Success? ==>
      var entries := FieldOr(FieldOr(har, "log", EmptyObject), "entries", JArr([]));
      EntriesOf(har).value == if entries.JArr? then entries.items else []
    ensures har.JObj? && FieldOr(har, "log", EmptyObject).JObj? ==>
      var entries := FieldOr(FieldOr(har, "log", EmptyObject), "entries", JArr([]));
      && ((entries.JObj? && entries != EmptyObject) || (entries.JStr? && entries != JStr(""))
          ==> EntriesOf(har) == Failure(AttributeError))
      && (!entries.JArr? && !entries.JObj? && !entries.JStr? ==> EntriesOf(har) == Failure(TypeError))
  {
  }

  /** Normalising succeeds exactly when every entry is accepted. */
  lemma NormalizeAcceptsIff(es: seq<Json>, np: NumParse)
    ensures Normalize(es, np).Success? <==> forall i :: 0 <= i < |es| ==> EntryOk(es[i], np)
  {
    MapResultSpec(es, EntryParser(np));
    forall i | 0 <= i < |es| {
      ParseEntryAcceptsIff(es[i], np);
    }
  }

  /** `parse_har` returns exactly on the documents of `HarOk`. */
  lemma AnalyzeAcceptsIff(har: Json, np: NumParse)
    ensures Analyze(har, np).Success? <==> HarOk(har, np)
  {
    EntriesOfIff(har);
    if EntriesOf(har).Success? {
      NormalizeAcceptsIff(EntriesOf(har).value, np);
    }
  }

  /** One record per entry, in entry order. */
  lemma AnalyzeRecords(har: Json, np: NumParse)
    requires Analyze(har, np).Success?
    ensures EntriesOf(har).Success?
    ensures var es := EntriesOf(har).value;
      var a := Analyze(har, np).value;
      && |a.records| == |es|
      && forall i :: 0 <= i < |es| ==> Success(a.records[i]) == ParseEntry(es[i], np)
  {
    MapResultSpec(EntriesOf(har).value, EntryParser(np));
  }

  /** The summary counts the entries, and its success and failure counts
      and its average are consistent with that count. */
  lemma AnalyzeSummary(har: Json, np: NumParse)
    requires Analyze(har, np).Success?
    ensures EntriesOf(har).Success?
    ensures var n := |EntriesOf(har).value|;
      var s := Analyze(har, np).value.summary;
      && s.totalRequests == n
      && s.successCount + s.failureCount <= n
      && s.statusCodeCounts[1] + s.statusCodeCounts[2] + s.statusCodeCounts[3]
         + s.statusCodeCounts[4] + s.statusCodeCounts[5] <= n
      && (n == 0 ==> s.averageTime == 0.0)
      && (n > 0 ==> s.averageTime == s.totalTime / (n as real))
  {
    var es := EntriesOf(har).value;
    var rs := Normalize(es, np).value;
    assert |rs| == |es| by {
      MapResultSpec(es, EntryParser(np));
    }
    assert Analyze(har, np).value.summary == Summarize(rs);
    SummaryFacts(rs);
  }

  /** The loop of `parse_har` for any way of normalising one entry:
      accumulate the total time and the histogram while appending records,
      then build the summary. */
  method SummarizeEntries(entries: seq<Json>, parse: Json -> Result<Record, PyError>)
    returns (res: Result<Analysis, PyError>)
    ensures res.Success? <==> MapResult(entries, parse).Success?
    ensures res.Failure? ==> res.error == MapResult(entries, parse).error
    ensures res.Success? ==> res.value == Analysis(MapResult(entries, parse).value,
                                                   Summarize(MapResult(entries, parse).value))
  {
    var records: seq<Record> := [];
    var totalTime := 0.0;
    var counts := EmptyCounts;
    var i := 0;
    while i < |entries|
      invariant 0 <= i <= |entries|
      invariant MapResult(entries[..i], parse) == Success(records)
      invariant totalTime == SumTime(records)
      invariant counts == Tally(records)
    {
      var parsed := parse(entries[i]);
      if parsed.Failure? {
        MapResultFailsAt(entries, i, parse);
        return Failure(parsed.error);
      }
      MapResultStep(entries, i, parse);
      var record := parsed.value;
      var c := StatusClass(record.status);
      TallyAppend(records, record);
      SumTimeAppend(records, record);
      if c in counts {
        counts := counts[c := counts[c] + 1];
      }
      totalTime := totalTime + record.time;
      records := records + [record];
      i := i + 1;
    }
    assert entries[..i] == entries;
    var n := |records|;
    var summary := Summary(n, totalTime, if n > 0 then totalTime / (n as real) else 0.0,
                           counts, counts[2], counts[4] + counts[5]);
    res := Success(Analysis(records, summary));
  }

  /** `parse_har` on a decoded document. */
  method ParseHar(har: Json, np: NumParse) returns (res: Result<Analysis, PyError>)
    ensures res == Analyze(har, np)
  {
    var found := EntriesOf(har);
    if found.Failure? {
      return Failure(found.error);
    }
    res := SummarizeEntries(found.value, EntryParser(np));
  }

  /** A record with the given status and time and every other default. */
  function DefaultRecord(status: int, time: real): Record {
    Record(JStr("GET"), JStr("N/A"), status, JStr("N/A"), time, JStr("N/A"), JNull, JStr("N/A"),
           Zero, Timings(0.0, 0.0, 0.0, 0.0, 0.0))
  }

  /** An entry holding only a time and a response status. */
  function TimedEntry(time: real, status: real): Json {
    JObj(map["time" := JNum(time), "response" := JObj(map["status" := JNum(status)])])
  }

  lemma TimedEntryRecord(time: real, status: int, np: NumParse)
    requires status != 0
    ensures ParseEntry(TimedEntry(time, status as real), np) == Success(DefaultRecord(status, time))
  {
    var e := TimedEntry(time, status as real);
    var response := JObj(map["status" := JNum(status as real)]);
    assert FieldOr(e, "response", EmptyObject) == response;
    assert FieldOr(e, "request", EmptyObject) == EmptyObject;
    assert FieldOr(e, "timings", EmptyObject) == EmptyObject;
    assert FieldOr(e, "time", Zero) == JNum(time);
    assert Trunc(status as real) == status;
    assert Int(Or(FieldOr(response, "status", Zero), Zero), np) == Success(status);
    assert FieldOr(response, "statusText", JNull) == JNull;
  }

  /** Two entries with statuses 200 and 404 and times 100 and 50. */
  lemma TwoEntryExample(np: NumParse)
    ensures var har := JObj(map["log" := JObj(map["entries" := JArr([TimedEntry(100.0, 200.0), TimedEntry(50.0, 404.0)])])]);
      Analyze(har, np) == Success(Analysis(
        [DefaultRecord(200, 100.0), DefaultRecord(404, 50.0)],
        Summary(2, 150.0, 75.0, map[1 := 0, 2 := 1, 3 := 0, 4 := 1, 5 := 0], 1, 1)))
  {
    var e1, e2 := TimedEntry(100.0, 200.0), TimedEntry(50.0, 404.0);
    var r1, r2 := DefaultRecord(200, 100.0), DefaultRecord(404, 50.0);
    TimedEntryRecord(100.0, 200, np);
    TimedEntryRecord(50.0, 404, np);
    MapResultTwo(e1, e2, EntryParser(np));
    SummarizeExample(r1, r2);
    EntriesOfLog([e1, e2]);
  }

  lemma EntriesOfLog(es: seq<Json>)
    ensures EntriesOf(JObj(map["log" := JObj(map["entries" := JArr(es)])])) == Success(es)
  {
  }

  lemma SummarizeExample(r1: Record, r2: Record)
    requires r1.status == 200 && r1.time == 100.0
    requires r2.status == 404 && r2.time == 50.0
    ensures Summarize([r1, r2]) == Summary(2, 150.0, 75.0, map[1 := 0, 2 := 1, 3 := 0, 4 := 1, 5 := 0], 1, 1)
  {
    assert [r1, r2][..1] == [r1] && [r1][..0] == [];
    assert Tally([r1]) == map[1 := 0, 2 := 1, 3 := 0, 4 := 0, 5 := 0];
    assert SumTime([r1]) == 100.0;
  }
}

=== FILE: har_records.dfy ===
/** One HAR entry turned into one request record (the loop body of
    `parse_har`).  `.get` falls back to its default only when the key is
    missing; the fields read through `or` also fall back when falsy; the
    copied fields keep their value whatever its kind.  A value that the code
    then uses as a dict or converts with `float()`/`int()`, and that is of
    the wrong kind, makes Python raise, which the model returns as a
    `Failure`. */
module HarRecords {
  import opened Wrappers
  import opened JsonValues
  import opened PyOps

  /** The five timing phases copied out of `entry.timings`.  They are not
      clamped: HAR lets `dns` and `connect` be -1. */
  datatype Timings = Timings(dns: real, connect: real, send: real, wait: real, receive: real)

  /** One normalised request.  Fields that the code copies through without
      conversion keep their JSON value; `JNull` stands for Python's `None`. */
  datatype Record = Record(
    httpMethod: Json,
    url: Json,
    status: int,
    contentType: Json,
    time: real,
    sourceIp: Json,
    errorMessage: Json,
    payload: Json,
    responseSize: Json,
    timings: Timings)

  const Zero: Json := JNum(0.0)

  /** `o.get(key, alt)` on a value already known to be a dict. */
  function FieldOr(o: Json, key: string, alt: Json): Json
    requires o.JObj?
  {
    if key in o.fields then o.fields[key] else alt
  }

  /** `float(timings.get(key, 0) or 0)` for a `timings` dict. */
  function TimingField(timings: Json, key: string, np: NumParse): Result<real, PyError>
    requires timings.JObj?
  {
    Float(Or(FieldOr(timings, key, Zero), Zero), np)
  }

  /** The loop body of `parse_har`, checked in Python's order so that the
      first exception raised is the one reported.  `entry.get` fails first on
      a non-dict entry; `timings`, `response` and `request` are only used as
      dicts at lines 59, 61 and 69 respectively. */
  function ParseEntry(entry: Json, np: NumParse): Result<Record, PyError> {
    if !entry.JObj? then Failure(AttributeError) else
    var request := FieldOr(entry, "request", EmptyObject);
    var response := FieldOr(entry, "response", EmptyObject);
    var timings := FieldOr(entry, "timings", EmptyObject);
    if !timings.JObj? then Failure(AttributeError) else
    // the fallback argument is evaluated even when `time` is present
    var timeValue := FieldOr(entry, "time", Or(FieldOr(timings, "wait", Zero), Zero));
    var timeTaken :- Float(timeValue, np);
    if !response.JObj? then Failure(AttributeError) else
    var status :- Int(Or(FieldOr(response, "status", Zero), Zero), np);
    if !request.JObj? then Failure(AttributeError) else
    var content := Or(FieldOr(response, "content", JNull), EmptyObject);
    var contentType :- Get(content, "mimeType", JStr("N/A"));
    var firstHeader :- Index0(Or(FieldOr(request, "headers", JNull), JArr([EmptyObject])));
    var sourceIp :- Get(firstHeader, "value", JStr("N/A"));
    var errorMessage := if status >= 400 then FieldOr(response, "statusText", JNull) else JNull;
    var payload :- Get(Or(FieldOr(request, "postData", JNull), EmptyObject), "text", JStr("N/A"));
    var size := Or(FieldOr(content, "size", Zero), Zero);
    var dns :- TimingField(timings, "dns", np);
    var connect :- TimingField(timings, "connect", np);
    var send :- TimingField(timings, "send", np);
    var wait :- TimingField(timings, "wait", np);
    var receive :- TimingField(timings, "receive", np);
    Success(Record(FieldOr(request, "method", JStr("GET")), FieldOr(request, "url", JStr("N/A")),
                   status, contentType, timeTaken, sourceIp, errorMessage, payload, size,
                   Timings(dns, connect, send, wait, receive)))
  }

  // ---------------------------------------------------------------------
  // Which entries are accepted, stated without Python's `get`/`or` idiom.

  /** `key` is missing or falsy, or holds a value satisfying `ok`. */
  predicate AbsentFalsyOr(o: Json, key: string, ok: Json -> bool)
    requires o.JObj?
  {
    key !in o.fields || !Truthy(o.fields[key]) || ok(o.fields[key])
  }

  predicate IsObject(v: Json) { v.JObj? }

  /** A header list the code can read `[0].get('value')` from. */
  predicate HeadIsObject(v: Json) { v.JArr? && |v.items| > 0 && v.items[0].JObj? }

  predicate TimingsOk(t: Json, np: NumParse)
    requires t.JObj?
  {
    var convertible := v => FloatConvertible(v, np);
    && AbsentFalsyOr(t, "dns", convertible)
    && AbsentFalsyOr(t, "connect", convertible)
    && AbsentFalsyOr(t, "send", convertible)
    && AbsentFalsyOr(t, "wait", convertible)
    && AbsentFalsyOr(t, "receive", convertible)
  }

  /** The entries `parse_har` gets through without raising: an object whose
      `request`, `response` and `timings` are objects when present, whose
      `time` converts to float when present, and whose other consulted
      fields are missing, falsy or of the right kind. */
  predicate EntryOk(e: Json, np: NumParse) {
    && e.JObj?
    && var request := FieldOr(e, "request", EmptyObject);
    && var response := FieldOr(e, "response", EmptyObject);
    && var timings := FieldOr(e, "timings", EmptyObject);
    && request.JObj? && response.JObj? && timings.JObj?
    && ("time" in e.fields ==> FloatConvertible(e.fields["time"], np))
    && TimingsOk(timings, np)
    && AbsentFalsyOr(response, "status", v => IntConvertible(v, np))
    && AbsentFalsyOr(response, "content", IsObject)
    && AbsentFalsyOr(request, "headers", HeadIsObject)
    && AbsentFalsyOr(request, "postData", IsObject)
  }

  lemma TimingsOkIff(timings: Json, np: NumParse)
    requires timings.JObj?
    ensures TimingsOk(timings, np) <==>
      && TimingField(timings, "dns", np).Success?
      && TimingField(timings, "connect", np).Success?
      && TimingField(timings, "send", np).Success?
      && TimingField(timings, "wait", np).Success?
      && TimingField(timings, "receive", np).Success?
  {
  }

  lemma TimeOkIff(e: Json, timings: Json, np: NumParse)
    requires e.JObj? && timings.JObj? && TimingsOk(timings, np)
    ensures Float(FieldOr(e, "time", Or(FieldOr(timings, "wait", Zero), Zero)), np).Success?
      <==> ("time" in e.fields ==> FloatConvertible(e.fields["time"], np))
  {
  }

  lemma StatusOkIff(response: Json, np: NumParse)
    requires response.JObj?
    ensures Int(Or(FieldOr(response, "status", Zero), Zero), np).Success?
      <==> AbsentFalsyOr(response, "status", v => IntConvertible(v, np))
  {
  }

  lemma ContentOkIff(response: Json)
    requires response.JObj?
    ensures Get(Or(FieldOr(response, "content", JNull), EmptyObject), "mimeType", JStr("N/A")).Success?
      <==> AbsentFalsyOr(response, "content", IsObject)
  {
  }

  lemma HeadersOkIff(request: Json)
    requires request.JObj?
    ensures var headers := Or(FieldOr(request, "headers", JNull), JArr([EmptyObject]));
      (Index0(headers).Success? && Get(Index0(headers).value, "value", JStr("N/A")).Success?)
      <==> AbsentFalsyOr(request, "headers", HeadIsObject)
  {
  }

  lemma PostDataOkIff(request: Json)
    requires request.JObj?
    ensures Get(Or(FieldOr(request, "postData", JNull), EmptyObject), "text", JStr("N/A")).Success?
      <==> AbsentFalsyOr(request, "postData", IsObject)
  {
  }

  /** An entry is normalised exactly when it satisfies `EntryOk`; in
      particular a `time` of `null` makes `float(None)` raise TypeError. */
  lemma ParseEntryAcceptsIff(e: Json, np: NumParse)
    ensures ParseEntry(e, np).Success? <==> EntryOk(e, np)
  {
    if e.JObj? {
      var request := FieldOr(e, "request", EmptyObject);
      var response := FieldOr(e, "response", EmptyObject);
      var timings := FieldOr(e, "timings", EmptyObject);
      if request.JObj? && response.JObj? && timings.JObj? {
        TimingsOkIff(timings, np);
        if TimingsOk(timings, np) {
          TimeOkIff(e, timings, np);
        }
        StatusOkIff(response, np);
        ContentOkIff(response);
        HeadersOkIff(request);
        PostDataOkIff(request);
      }
    }
  }

  /** `float(v or 0)` for a value that is missing, falsy or convertible. */
  predicate FloatOrZero(v: Option<Json>, np: NumParse, x: real) {
    match v
    case Some(j) => if Truthy(j) then Float(j, np) == Success(x) else x == 0.0
    case None => x == 0.0
  }

  function Lookup(o: Json, key: string): Option<Json>
    requires o.JObj?
  {
    if key in o.fields then Some(o.fields[key]) else None
  }

  /** `request`, `response` and `timings` of an accepted entry are dicts. */
  predicate PartsAreObjects(e: Json) {
    && e.JObj?
    && FieldOr(e, "request", EmptyObject).JObj?
    && FieldOr(e, "response", EmptyObject).JObj?
    && FieldOr(e, "timings", EmptyObject).JObj?
  }

  /** `time_taken` of an accepted entry: `time` when present (even when it
      is 0), else a truthy `timings.wait`, else 0. */
  lemma ParseEntryTime(e: Json, np: NumParse)
    requires ParseEntry(e, np).Success?
    ensures PartsAreObjects(e)
    ensures var r := ParseEntry(e, np).value;
      var timings := FieldOr(e, "timings", EmptyObject);
      && ("time" in e.fields ==> Float(e.fields["time"], np) == Success(r.time))
      && ("time" !in e.fields ==> FloatOrZero(Lookup(timings, "wait"), np, r.time))
  {
  }

  /** The status is `int()` of a truthy `response.status`, else 0;
      `statusText` is kept only for statuses of 400 and above; method and
      URL are copied with their defaults. */
  lemma ParseEntryStatus(e: Json, np: NumParse)
    requires ParseEntry(e, np).Success?
    ensures PartsAreObjects(e)
    ensures var r := ParseEntry(e, np).value;
      var request := FieldOr(e, "request", EmptyObject);
      var response := FieldOr(e, "response", EmptyObject);
      && (match Lookup(response, "status")
          case Some(v) => if Truthy(v) then Int(v, np) == Success(r.status) else r.status == 0
          case None => r.status == 0)
      && r.httpMethod == (if "method" in request.fields then request.fields["method"] else JStr("GET"))
      && r.url == (if "url" in request.fields then request.fields["url"] else JStr("N/A"))
      && (r.status >= 400 ==> r.errorMessage == (if "statusText" in response.fields then response.fields["statusText"] else JNull))
      && (r.status < 400 ==> r.errorMessage == JNull)
  {
  }

  /** Content type and size come from a truthy `response.content` dict, and
      are "N/A" and 0 without one. */
  lemma ParseEntryContent(e: Json, np: NumParse)
    requires ParseEntry(e, np).Success?
    ensures PartsAreObjects(e)
    ensures var r := ParseEntry(e, np).value;
      var response := FieldOr(e, "response", EmptyObject);
      && (("content" !in response.fields || !Truthy(response.fields["content"])) ==>
            r.contentType == JStr("N/A") && r.responseSize == Zero)
      && ("content" in response.fields && Truthy(response.fields["content"]) ==>
            var c := response.fields["content"];
            && c.JObj?
            && r.contentType == (if "mimeType" in c.fields then c.fields["mimeType"] else JStr("N/A"))
            && r.responseSize == (if "size" in c.fields && Truthy(c.fields["size"]) then c.fields["size"] else Zero))
  {
  }

  /** The source IP is the `value` of the first request header, and the
      payload is `postData.text`; both are "N/A" when their dict is
      missing or falsy. */
  lemma ParseEntryRequest(e: Json, np: NumParse)
    requires ParseEntry(e, np).Success?
    ensures PartsAreObjects(e)
    ensures var r := ParseEntry(e, np).value;
      var request := FieldOr(e, "request", EmptyObject);
      && (("headers" !in request.fields || !Truthy(request.fields["headers"])) ==> r.sourceIp == JStr("N/A"))
      && ("headers" in request.fields && Truthy(request.fields["headers"]) ==>
            var h := request.fields["headers"];
            && h.JArr? && |h.items| > 0 && h.items[0].JObj?
            && r.sourceIp == (if "value" in h.items[0].fields then h.items[0].fields["value"] else JStr("N/A")))
      && (("postData" !in request.fields || !Truthy(request.fields["postData"])) ==> r.payload == JStr("N/A"))
      && ("postData" in request.fields && Truthy(request.fields["postData"]) ==>
            var pd := request.fields["postData"];
            && pd.JObj?
            && r.payload == (if "text" in pd.fields then pd.fields["text"] else JStr("N/A")))
  {
  }

  /** Each of the five phases is `float()` of its truthy value, else 0. */
  lemma ParseEntryTimings(e: Json, np: NumParse)
    requires ParseEntry(e, np).Success?
    ensures PartsAreObjects(e)
    ensures var r := ParseEntry(e, np).value;
      var timings := FieldOr(e, "timings", EmptyObject);
      && FloatOrZero(Lookup(timings, "dns"), np, r.timings.dns)
      && FloatOrZero(Lookup(timings, "connect"), np, r.timings.connect)
      && FloatOrZero(Lookup(timings, "send"), np, r.timings.send)
      && FloatOrZero(Lookup(timings, "wait"), np, r.timings.wait)
      && FloatOrZero(Lookup(timings, "receive"), np, r.timings.receive)
  {
  }

  /** A present `time` of 0 wins over a non-zero `timings.wait`. */
  lemma ZeroTimeWinsOverWait(np: NumParse)
    ensures var e := JObj(map["time" := JNum(0.0), "timings" := JObj(map["wait" := JNum(120.0)])]);
      ParseEntry(e, np).Success? && ParseEntry(e, np).value.time == 0.0
  {
  }

  /** An empty entry `{}` gets every default. */
  lemma EmptyEntryDefaults(np: NumParse)
    ensures ParseEntry(EmptyObject, np) == Success(Record(
      JStr("GET"), JStr("N/A"), 0, JStr("N/A"), 0.0, JStr("N/A"), JNull, JStr("N/A"), Zero,
      Timings(0.0, 0.0, 0.0, 0.0, 0.0)))
  {
  }

  /** `{"time": null}` makes `float(None)` raise. */
  lemma NullTimeRaises(np: NumParse)
    ensures ParseEntry(JObj(map["time" := JNull]), np) == Failure(TypeError)
  {
  }
}

=== FILE: har_summary.dfy ===
/** The summary `parse_har` folds out of its records: request count, total
    and average time, the status-class histogram over classes 1..5, and the
    success and failure counts derived from it. */
module HarSummary {
  import opened HarRecords

  /** `status // 100`.  Python floors; Dafny's `/` by a positive divisor
      agrees, also for negative statuses. */
  function StatusClass(status: int): (c: int)
    ensures c * 100 <= status < c * 100 + 100
  {
    status / 100
  }

  /** The keys of the histogram. */
  const Classes: set<int> := {1, 2, 3, 4, 5}

  /** `{1: 0, 2: 0, 3: 0, 4: 0, 5: 0}` */
  const EmptyCounts: map<int, nat> := map[1 := 0, 2 := 0, 3 := 0, 4 := 0, 5 := 0]

  /** One histogram update: only an existing key is incremented. */
  function Bump(counts: map<int, nat>, c: int): map<int, nat> {
    if c in counts then counts[c := counts[c] + 1] else counts
  }

  /** The histogram as the loop builds it, one record at a time. */
  function Tally(rs: seq<Record>): (counts: map<int, nat>)
    ensures counts.Keys == Classes
  {
    if |rs| == 0 then EmptyCounts
    else Bump(Tally(rs[..|rs| - 1]), StatusClass(rs[|rs| - 1].status))
  }

  /** `total_time` as the loop accumulates it. */
  function SumTime(rs: seq<Record>): real {
    if |rs| == 0 then 0.0 else SumTime(rs[..|rs| - 1]) + rs[|rs| - 1].time
  }

  /** How many records fall into status class `c`. */
  function CountClass(rs: seq<Record>, c: int): nat {
    if |rs| == 0 then 0
    else (if StatusClass(rs[0].status) == c then 1 else 0) + CountClass(rs[1..], c)
  }

  datatype Summary = Summary(
    totalRequests: nat,
    totalTime: real,
    averageTime: real,
    statusCodeCounts: map<int, nat>,
    successCount: nat,
    failureCount: nat)

  /** The `summary` dict of `parse_har`. */
  function Summarize(rs: seq<Record>): Summary {
    var counts := Tally(rs);
    var total := SumTime(rs);
    Summary(
      |rs|,
      total,
      if |rs| > 0 then total / (|rs| as real) else 0.0,
      counts,
      counts[2],
      counts[4] + counts[5])
  }

  /** Adding a record to the end adds it to the histogram. */
  lemma TallyAppend(rs: seq<Record>, r: Record)
    ensures Tally(rs + [r]) == Bump(Tally(rs), StatusClass(r.status))
  {
    assert (rs + [r])[..|rs|] == rs;
  }

  /** Adding a record to the end adds its time to the total. */
  lemma SumTimeAppend(rs: seq<Record>, r: Record)
    ensures SumTime(rs + [r]) == SumTime(rs) + r.time
  {
    assert (rs + [r])[..|rs|] == rs;
  }

  lemma {:induction false} CountClassAppend(rs: seq<Record>, r: Record, c: int)
    ensures CountClass(rs + [r], c) == CountClass(rs, c) + (if StatusClass(r.status) == c then 1 else 0)
  {
    if |rs| > 0 {
      assert (rs + [r])[1..] == rs[1..] + [r];
      CountClassAppend(rs[1..], r, c);
    }
  }

  /** The histogram counts, for each class 1..5, the records of that class;
      records of any other class leave it unchanged. */
  lemma {:induction false} TallyCounts(rs: seq<Record>)
    ensures forall c :: c in Classes ==> Tally(rs)[c] == CountClass(rs, c)
  {
    if |rs| > 0 {
      var init := rs[..|rs| - 1];
      var last := rs[|rs| - 1];
      assert rs == init + [last];
      TallyCounts(init);
      forall c | c in Classes
        ensures Tally(rs)[c] == CountClass(rs, c)
      {
        CountClassAppend(init, last, c);
      }
    }
  }

  /** Each record is counted in at most one class, so the histogram never
      holds more than the number of records. */
  lemma {:induction false} ClassCountsBounded(rs: seq<Record>)
    ensures CountClass(rs, 1) + CountClass(rs, 2) + CountClass(rs, 3)
          + CountClass(rs, 4) + CountClass(rs, 5) <= |rs|
  {
    if |rs| > 0 {
      ClassCountsBounded(rs[1..]);
    }
  }

  /** Everything the summary promises about the records it was built from. */
  lemma SummaryFacts(rs: seq<Record>)
    ensures var s := Summarize(rs);
      && s.totalRequests == |rs|
      && s.statusCodeCounts.Keys == Classes
      && (forall c :: c in Classes ==> s.statusCodeCounts[c] == CountClass(rs, c))
      && s.statusCodeCounts[1] + s.statusCodeCounts[2] + s.statusCodeCounts[3]
         + s.statusCodeCounts[4] + s.statusCodeCounts[5] <= |rs|
      && s.successCount == CountClass(rs, 2)
      && s.failureCount == CountClass(rs, 4) + CountClass(rs, 5)
      && s.successCount + s.failureCount <= s.totalRequests
      && (|rs| > 0 ==> s.averageTime == s.totalTime / (|rs| as real))
      && (|rs| > 0 ==> s.averageTime * (|rs| as real) == s.totalTime)
      && (|rs| == 0 ==> s.totalTime == 0.0 && s.averageTime == 0.0)
  {
    TallyCounts(rs);
    ClassCountsBounded(rs);
  }
}

=== FILE: json.dfy ===
/** A decoded JSON document, as Python's `json.load` hands it to the program:
    `None`, `bool`, numbers, `str`, `list` and `dict`.  Integers and floats
    share one constructor holding a real; dictionary key order is not kept. */
module JsonValues {

  datatype Json =
    | JNull
    | JBool(b: bool)
    | JNum(n: real)
    | JStr(s: string)
    | JArr(items: seq<Json>)
    | JObj(fields: map<string, Json>)

  /** The empty dictionary `{}`. */
  const EmptyObject: Json := JObj(map[])
}

=== FILE: paragraph_format.dfy ===
/** `format_ai_paragraph`: the `suggests` text of the report turned into an
    HTML ordered list, one item per numbered point, with `**x**` rendered as
    `<strong>x</strong>`. */
module AiParagraph {
  import opened Wrappers
  import opened PyStr
  import opened ParagraphSplit

  // ---------------------------------------------------------------------
  // re.sub(r'\*\*(.*?)\*\*', r'<strong>\1</strong>', point)

  predicate StarsAt(s: string, k: int) {
    0 <= k && k + 2 <= |s| && s[k] == '*' && s[k + 1] == '*'
  }

  /** The closing `**` for an opening one ending at `j`: the first `**` at
      or after `j`, provided no newline comes before it (`.` does not match
      a newline). */
  function CloseAt(s: string, j: nat): (r: Option<nat>)
    requires j <= |s|
    ensures r.Some? ==>
      && j <= r.value && StarsAt(s, r.value)
      && (forall m :: j <= m < r.value ==> !StarsAt(s, m) && s[m] != '\n')
    ensures r.None? ==> forall k :: j <= k && StarsAt(s, k) ==> exists m :: j <= m < k && s[m] == '\n'
    decreases |s| - j
  {
    if j + 2 > |s| then None
    else if StarsAt(s, j) then Some(j)
    else if s[j] == '\n' then None
    else CloseAt(s, j + 1)
  }

  /** The substitution, scanning left to right: where a `**` opens and a
      closing one follows on the same line, the shortest such span is
      replaced; otherwise one character is copied and the scan moves on. */
  function Emphasize(s: string): string
    decreases |s|
  {
    if |s| == 0 then ""
    else if StarsAt(s, 0) && CloseAt(s, 2).Some? then
      var k := CloseAt(s, 2).value;
      "<strong>" + s[2..k] + "</strong>" + Emphasize(s[k + 2..])
    else [s[0]] + Emphasize(s[1..])
  }

  /** The inverse rewrite: both tags back to `**`. */
  function Unstrong(t: string): string
    decreases |t|
  {
    if |t| >= 8 && t[..8] == "<strong>" then "**" + Unstrong(t[8..])
    else if |t| >= 9 && t[..9] == "</strong>" then "**" + Unstrong(t[9..])
    else if |t| == 0 then ""
    else [t[0]] + Unstrong(t[1..])
  }

  /** A first character other than `<` is copied. */
  lemma UnstrongCopies(t: string)
    requires |t| > 0 && t[0] != '<'
    ensures Unstrong(t) == [t[0]] + Unstrong(t[1..])
  {
    assert |t| >= 8 ==> t[..8] != "<strong>" by {
      if |t| >= 8 { assert t[..8][0] == t[0]; }
    }
    assert |t| >= 9 ==> t[..9] != "</strong>" by {
      if |t| >= 9 { assert t[..9][0] == t[0]; }
    }
  }

  lemma {:induction false} UnstrongPlain(x: string, rest: string)
    requires '<' !in x
    ensures Unstrong(x + rest) == x + Unstrong(rest)
    decreases |x|
  {
    if |x| > 0 {
      ConsSplit(x, rest);
      UnstrongCopies(x + rest);
      UnstrongPlain(x[1..], rest);
      ConsJoin(x, Unstrong(rest));
    } else {
      assert x + rest == rest;
    }
  }

  /** On text without `<`, the rewrite loses nothing: turning the tags back
      into `**` gives the text again. */
  lemma {:induction false} EmphasizeRoundTrip(s: string)
    requires '<' !in s
    ensures Unstrong(Emphasize(s)) == s
    decreases |s|
  {
    if |s| == 0 {
    } else if StarsAt(s, 0) && CloseAt(s, 2).Some? {
      var k := CloseAt(s, 2).value;
      assert '<' !in s[2..k] && '<' !in s[k + 2..];
      EmphasizeRoundTrip(s[k + 2..]);
      UnstrongSpan(s[2..k], Emphasize(s[k + 2..]));
      StarredSpan(s, k);
    } else {
      EmphasizeRoundTrip(s[1..]);
      UnstrongPlain([s[0]], Emphasize(s[1..]));
    }
  }

  lemma UnstrongSpan(mid: string, rest: string)
    requires '<' !in mid
    ensures Unstrong("<strong>" + mid + "</strong>" + rest) == "**" + mid + "**" + Unstrong(rest)
  {
    var t := "<strong>" + mid + "</strong>" + rest;
    assert t[..8] == "<strong>" && t[8..] == mid + ("</strong>" + rest);
    UnstrongPlain(mid, "</strong>" + rest);
    var u := "</strong>" + rest;
    assert u[..9] == "</strong>" && u[9..] == rest;
    assert u[..8] != "<strong>" by {
      assert u[..8][1] == '/';
    }
  }

  lemma StarredSpan(s: string, k: nat)
    requires StarsAt(s, 0) && 2 <= k && StarsAt(s, k)
    ensures s == "**" + s[2..k] + "**" + s[k + 2..]
  {
    assert s[..2] == "**" && s[k..k + 2] == "**";
    assert s == s[..2] + s[2..k] + s[k..k + 2] + s[k + 2..];
  }

  lemma {:induction false} CloseAtFirst(s: string, j: nat, k: nat)
    requires j <= k && StarsAt(s, k)
    requires forall m :: j <= m < k ==> !StarsAt(s, m) && s[m] != '\n'
    ensures CloseAt(s, j) == Some(k)
    decreases k - j
  {
    if j < k {
      CloseAtFirst(s, j + 1, k);
    }
  }

  /** Where `**x**` sits in `"**" + x + "**" + rest`. */
  lemma SpanLayout(x: string, rest: string)
    ensures var s := "**" + x + "**" + rest;
      && StarsAt(s, 0) && StarsAt(s, 2 + |x|)
      && s[2..2 + |x|] == x && s[2 + |x| + 2..] == rest
      && (forall m :: 2 <= m < 2 + |x| ==> s[m] == x[m - 2])
  {
  }

  /** An emphasised span: `**x**`, with no newline and no `**` inside and
      not ending in `*`, becomes `<strong>x</strong>`, and the rewrite goes
      on after it. */
  lemma EmphasizeSpan(x: string, rest: string)
    requires '\n' !in x
    requires forall k :: !StarsAt(x, k)
    requires |x| == 0 || x[|x| - 1] != '*'
    ensures Emphasize("**" + x + "**" + rest) == "<strong>" + x + "</strong>" + Emphasize(rest)
  {
    var s := "**" + x + "**" + rest;
    var k := 2 + |x|;
    SpanLayout(x, rest);
    forall m | 2 <= m < k
      ensures !StarsAt(s, m) && s[m] != '\n'
    {
      if m + 1 < k {
        assert s[m + 1] == x[m - 1];
        assert !StarsAt(x, m - 2);
      }
    }
    CloseAtFirst(s, 2, k);
  }

  /** Text without `**` is left as it is. */
  lemma {:induction false} EmphasizeWithoutStars(s: string)
    requires forall k :: !StarsAt(s, k)
    ensures Emphasize(s) == s
    decreases |s|
  {
    if |s| > 0 {
      assert forall k :: StarsAt(s[1..], k) ==> StarsAt(s, k + 1);
      EmphasizeWithoutStars(s[1..]);
    }
  }

  /** No `**` is closed on its own line: past every `**`, a newline comes
      before any later `**`. */
  ghost predicate NoClosedSpan(s: string) {
    forall i, k :: 0 <= i && i + 2 <= k && StarsAt(s, i) && StarsAt(s, k) ==>
      exists m :: i + 2 <= m < k && s[m] == '\n'
  }

  /** A `**` at the start with no close on its line finds none. */
  lemma UnclosedFindsNoClose(s: string)
    requires NoClosedSpan(s) && StarsAt(s, 0)
    ensures CloseAt(s, 2).None?
  {
  }

  lemma NoClosedSpanTail(s: string)
    requires |s| > 0 && NoClosedSpan(s)
    ensures NoClosedSpan(s[1..])
  {
    var t := s[1..];
    forall i, k | 0 <= i && i + 2 <= k && StarsAt(t, i) && StarsAt(t, k)
      ensures exists m :: i + 2 <= m < k && t[m] == '\n'
    {
      assert StarsAt(s, i + 1) && StarsAt(s, k + 1);
      var m :| i + 3 <= m < k + 1 && s[m] == '\n';
      assert t[m - 1] == '\n';
    }
  }

  /** An opening `**` whose close is missing, or lies past a newline, stays
      as written: text in which no `**` is closed on its own line is left
      unchanged. */
  lemma {:induction false} EmphasizeUnclosed(s: string)
    requires NoClosedSpan(s)
    ensures Emphasize(s) == s
    decreases |s|
  {
    if |s| > 0 {
      if StarsAt(s, 0) {
        UnclosedFindsNoClose(s);
      }
      NoClosedSpanTail(s);
      EmphasizeUnclosed(s[1..]);
      assert [s[0]] + s[1..] == s;
    }
  }

  /** Dropping the first character shifts the search for a close by one. */
  lemma {:induction false} CloseAtShift(t: string, j: nat)
    requires |t| > 0 && j + 1 <= |t|
    ensures CloseAt(t[1..], j).None? == CloseAt(t, j + 1).None?
    decreases |t| - j
  {
    var u := t[1..];
    if j + 2 <= |u| {
      assert StarsAt(u, j) == StarsAt(t, j + 1);
      assert u[j] == t[j + 1];
      if !StarsAt(u, j) && u[j] != '\n' {
        CloseAtShift(t, j + 1);
      }
    }
  }

  /** No `**` starting inside the first `n` characters of `t` finds a close. */
  ghost predicate OpensNoSpan(t: string, n: nat) {
    forall i :: 0 <= i < n && StarsAt(t, i) ==> CloseAt(t, i + 2).None?
  }

  lemma OpensNoSpanTail(t: string, n: nat)
    requires |t| > 0 && 0 < n && OpensNoSpan(t, n)
    ensures OpensNoSpan(t[1..], n - 1)
  {
    forall i | 0 <= i < n - 1 && StarsAt(t[1..], i)
      ensures CloseAt(t[1..], i + 2).None?
    {
      assert StarsAt(t, i + 1);
      CloseAtShift(t, i + 2);
    }
  }

  /** Text before a span is copied as it is: a prefix in which no `**` opens
      a span closed on its line comes out unchanged, and the rewrite goes on
      with the rest. */
  lemma {:induction false} EmphasizeCopiesPrefix(p: string, s: string)
    requires OpensNoSpan(p + s, |p|)
    ensures Emphasize(p + s) == p + Emphasize(s)
    decreases |p|
  {
    if |p| == 0 {
      assert p + s == s;
    } else {
      var t := p + s;
      ConsSplit(p, s);
      assert !(StarsAt(t, 0) && CloseAt(t, 2).Some?);
      OpensNoSpanTail(t, |p|);
      EmphasizeCopiesPrefix(p[1..], s);
      ConsJoin(p, Emphasize(s));
    }
  }

  /** A prefix without `*` is copied as it is. */
  lemma EmphasizePlainPrefix(p: string, s: string)
    requires '*' !in p
    ensures Emphasize(p + s) == p + Emphasize(s)
  {
    forall i | 0 <= i < |p|
      ensures !StarsAt(p + s, i)
    {
      assert (p + s)[i] == p[i];
    }
    EmphasizeCopiesPrefix(p, s);
  }

  /** A span in the middle of plain text: the text before it is copied,
      the span is rewritten, and text without `**` after it is copied. */
  lemma EmphasizeMidSpan(p: string, x: string, z: string)
    requires '*' !in p
    requires '\n' !in x
    requires forall k :: !StarsAt(x, k)
    requires |x| == 0 || x[|x| - 1] != '*'
    requires forall k :: !StarsAt(z, k)
    ensures Emphasize(p + "**" + x + "**" + z) == p + "<strong>" + x + "</strong>" + z
  {
    var span := "**" + x + "**" + z;
    calc {
      Emphasize(p + "**" + x + "**" + z);
      { assert p + "**" + x + "**" + z == p + span; }
      Emphasize(p + span);
      { EmphasizePlainPrefix(p, span); }
      p + Emphasize(span);
      { EmphasizeSpan(x, z); EmphasizeWithoutStars(z); }
      p + ("<strong>" + x + "</strong>" + z);
      p + "<strong>" + x + "</strong>" + z;
    }
  }

  lemma MidTextInput()
    ensures "Do " + "**" + "this" + "**" + " now" == "Do **this** now"
  {
    assert "Do " + "**" == "Do **";
    assert "Do **" + "this" == "Do **this";
    assert "Do **this" + "**" == "Do **this**";
    assert "Do **this**" + " now" == "Do **this** now";
  }

  lemma MidTextOutput()
    ensures "Do " + "<strong>" + "this" + "</strong>" + " now" == "Do <strong>this</strong> now"
  {
    assert "Do " + "<strong>" == "Do <strong>";
    assert "Do <strong>" + "this" == "Do <strong>this";
    assert "Do <strong>this" + "</strong>" == "Do <strong>this</strong>";
    assert "Do <strong>this</strong>" + " now" == "Do <strong>this</strong> now";
  }

  /** A span in the middle of a sentence is rewritten in place. */
  lemma MidTextSpan()
    ensures Emphasize("Do **this** now") == "Do <strong>this</strong> now"
  {
    assert forall k :: !StarsAt("this", k);
    assert forall k :: !StarsAt(" now", k);
    EmphasizeMidSpan("Do ", "this", " now");
    MidTextInput();
    MidTextOutput();
  }

  // ---------------------------------------------------------------------
  // The list

  /** `f'<li>{formatted_point}</li>'` */
  function ListItem(point: string): string {
    "<li>" + Emphasize(point) + "</li>"
  }

  function ListItems(points: seq<string>): string {
    if |points| == 0 then "" else ListItem(points[0]) + ListItems(points[1..])
  }

  /** `format_ai_paragraph(paragraph)` */
  function FormatAiParagraph(paragraph: string): (html: string)
    ensures |html| >= 9 && html[..4] == "<ol>" && html[|html| - 5..] == "</ol>"
  {
    "<ol>" + ListItems(Points(paragraph)) + "</ol>"
  }

  // ---------------------------------------------------------------------
  // Reading the list back

  /** `t` has a `</li>` at index `k`. */
  predicate EndTagAt(t: string, k: int) {
    0 <= k && k + 5 <= |t| && t[k..k + 5] == "</li>"
  }

  /** The first `</li>` at or after `j`. */
  function FindEndTag(t: string, j: nat): (r: Option<nat>)
    ensures r.Some? ==> j <= r.value && EndTagAt(t, r.value)
    decreases |t| - j
  {
    if j + 5 > |t| then None
    else if EndTagAt(t, j) then Some(j)
    else FindEndTag(t, j + 1)
  }

  /** The items of `<li>x</li><li>y</li>...`, each read up to its first
      `</li>` and with the emphasis tags turned back into `**`. */
  function ParseItems(body: string): Option<seq<string>>
    decreases |body|
  {
    if |body| == 0 then Some([])
    else if |body| >= 4 && body[..4] == "<li>" then
      match FindEndTag(body, 4)
      case None => None
      case Some(k) =>
        match ParseItems(body[k + 5..])
        case None => None
        case Some(items) => Some([Unstrong(body[4..k])] + items)
    else None
  }

  /** Reads a formatted paragraph back into its points. */
  function ParseList(html: string): Option<seq<string>> {
    if |html| >= 9 && html[..4] == "<ol>" && html[|html| - 5..] == "</ol>" then
      ParseItems(html[4..|html| - 5])
    else None
  }

  /** No `</li>` anywhere in `t`. */
  predicate NoEndTag(t: string) {
    forall k :: 0 <= k < |t| ==> !EndTagAt(t, k)
  }

  /** Every `<` in `t` opens `<s` or `</s`, as the tags `Emphasize` writes do. */
  predicate OnlyStrongTags(t: string) {
    forall k :: 0 <= k < |t| ==> StrongTagOk(t, k)
  }

  /** A `<` at index `k` opens `<s` or `</s`. */
  predicate StrongTagOk(t: string, k: nat)
    requires k < |t|
  {
    t[k] == '<' ==>
      || (k + 1 < |t| && t[k + 1] == 's')
      || (k + 2 < |t| && t[k + 1] == '/' && t[k + 2] == 's')
  }

  lemma OnlyStrongTagsConcat(a: string, b: string)
    requires OnlyStrongTags(a) && OnlyStrongTags(b)
    ensures OnlyStrongTags(a + b)
  {
    var t := a + b;
    forall k | 0 <= k < |t|
      ensures StrongTagOk(t, k)
    {
      if k >= |a| {
        var i := k - |a|;
        assert StrongTagOk(b, i);
        assert b[i] == t[k];
        assert i + 1 < |b| ==> t[k + 1] == b[i + 1];
        assert i + 2 < |b| ==> t[k + 2] == b[i + 2];
      } else {
        assert StrongTagOk(a, k);
        assert a[k] == t[k];
        assert k + 1 < |a| ==> t[k + 1] == a[k + 1];
        assert k + 2 < |a| ==> t[k + 2] == a[k + 2];
      }
    }
  }

  lemma TagsAreStrong()
    ensures OnlyStrongTags("<strong>") && OnlyStrongTags("</strong>")
  {
    var open: string := "<strong>";
    var close: string := "</strong>";
    forall k | 0 <= k < |open|
      ensures StrongTagOk(open, k)
    {
    }
    forall k | 0 <= k < |close|
      ensures StrongTagOk(close, k)
    {
    }
  }

  lemma PlainHasOnlyStrongTags(x: string)
    requires '<' !in x
    ensures OnlyStrongTags(x)
  {
    forall k | 0 <= k < |x|
      ensures StrongTagOk(x, k)
    {
      assert x[k] != '<';
    }
  }

  lemma {:induction false} EmphasizeOnlyStrongTags(s: string)
    requires '<' !in s
    ensures OnlyStrongTags(Emphasize(s))
    decreases |s|
  {
    if |s| == 0 {
    } else if StarsAt(s, 0) && CloseAt(s, 2).Some? {
      var k := CloseAt(s, 2).value;
      assert '<' !in s[2..k] && '<' !in s[k + 2..];
      EmphasizeOnlyStrongTags(s[k + 2..]);
      var open: string := "<strong>";
      var close: string := "</strong>";
      TagsAreStrong();
      PlainHasOnlyStrongTags(s[2..k]);
      OnlyStrongTagsConcat(open, s[2..k]);
      OnlyStrongTagsConcat(open + s[2..k], close);
      OnlyStrongTagsConcat(open + s[2..k] + close, Emphasize(s[k + 2..]));
    } else {
      assert '<' !in s[1..];
      EmphasizeOnlyStrongTags(s[1..]);
      PlainHasOnlyStrongTags([s[0]]);
      OnlyStrongTagsConcat([s[0]], Emphasize(s[1..]));
    }
  }

  lemma OnlyStrongTagsNoEndTag(t: string)
    requires OnlyStrongTags(t)
    ensures NoEndTag(t)
  {
    forall k | 0 <= k && k + 5 <= |t|
      ensures !EndTagAt(t, k)
    {
      if t[k] == '<' && t[k + 1] == '/' {
        assert StrongTagOk(t, k);
        assert t[k + 2] == 's';
        assert t[k..k + 5][2] == 's';
      } else {
        assert t[k..k + 5][0] == t[k] && t[k..k + 5][1] == t[k + 1];
      }
    }
  }

  lemma {:induction false} FindEndTagFirst(t: string, j: nat, k: nat)
    requires j <= k && EndTagAt(t, k)
    requires forall m :: j <= m < k ==> !EndTagAt(t, m)
    ensures FindEndTag(t, j) == Some(k)
    decreases k - j
  {
    if j < k {
      FindEndTagFirst(t, j + 1, k);
    }
  }

  /** In `<li>` + `e` + `</li>` + `rest`, the first `</li>` after the
      opening tag is the one written after `e`. */
  lemma ItemEnd(e: string, rest: string)
    requires NoEndTag(e)
    ensures var body := "<li>" + e + "</li>" + rest;
      FindEndTag(body, 4) == Some(4 + |e|) && body[4..4 + |e|] == e && body[4 + |e| + 5..] == rest
  {
    var body := "<li>" + e + "</li>" + rest;
    var end := 4 + |e|;
    assert body[end..end + 5] == "</li>";
    forall m | 4 <= m < end
      ensures !EndTagAt(body, m)
    {
      if m + 5 <= end {
        assert body[m..m + 5] == e[m - 4..m + 1];
        assert !EndTagAt(e, m - 4);
      } else {
        assert body[end] == '<';
        assert body[m..m + 5][end - m] == '<';
        assert "</li>"[end - m] != '<';
      }
    }
    FindEndTagFirst(body, 4, end);
  }

  /** One item in front of a list that reads back reads back too. */
  lemma ParseItemsCons(e: string, rest: string, items: seq<string>)
    requires NoEndTag(e) && ParseItems(rest) == Some(items)
    ensures ParseItems("<li>" + e + "</li>" + rest) == Some([Unstrong(e)] + items)
  {
    var body := "<li>" + e + "</li>" + rest;
    ItemEnd(e, rest);
    assert body[..4] == "<li>";
  }

  /** Reading back a list of items gives their points. */
  lemma {:induction false} ParseItemsRoundTrip(points: seq<string>)
    requires forall i :: 0 <= i < |points| ==> '<' !in points[i]
    ensures ParseItems(ListItems(points)) == Some(points)
  {
    if |points| > 0 {
      var e := Emphasize(points[0]);
      EmphasizeOnlyStrongTags(points[0]);
      OnlyStrongTagsNoEndTag(e);
      EmphasizeRoundTrip(points[0]);
      ParseItemsRoundTrip(points[1..]);
      ParseItemsCons(e, ListItems(points[1..]), points[1..]);
      assert ListItems(points) == "<li>" + e + "</li>" + ListItems(points[1..]);
      assert points == [points[0]] + points[1..];
    }
  }

  /** For a paragraph without `<`, the output holds exactly one list item
      per non-empty stripped point, in order: reading the list back, with
      the `<strong>` tags turned back into `**`, recovers the points.  What
      the rewrite does to a span is `EmphasizeSpan`. */
  lemma FormatRoundTrip(paragraph: string)
    requires '<' !in paragraph
    ensures ParseList(FormatAiParagraph(paragraph)) == Some(Points(paragraph))
  {
    PointsKeepAbsence(paragraph, '<');
    ParseItemsRoundTrip(Points(paragraph));
    var html := FormatAiParagraph(paragraph);
    assert html[4..|html| - 5] == ListItems(Points(paragraph));
  }

  /** No items give an empty list. */
  lemma EmptyListHtml()
    ensures "<ol>" + ListItems([]) + "</ol>" == "<ol></ol>"
  {
  }

  /** A paragraph of whitespace only gives an empty list. */
  lemma WhitespaceOnlyIsEmptyList(paragraph: string)
    requires forall k :: 0 <= k < |paragraph| ==> paragraph[k] in Whitespace
    ensures FormatAiParagraph(paragraph) == "<ol></ol>"
  {
    forall k | 0 <= k < |paragraph|
      ensures !IsDigit(paragraph[k])
    {
      WhitespaceIsNotDigit(paragraph[k]);
    }
    assert Points(paragraph) == [] by {
      SplitWithoutDigits(paragraph);
      StripCharsEmptyIff(paragraph, Whitespace);
      StrippedSingle(paragraph);
    }
    EmptyListHtml();
  }

  // ---------------------------------------------------------------------
  // A two-point paragraph

  /** `**y**z` has no digits when `y` and `z` have none. */
  lemma StarredHasNoDigits(y: string, z: string)
    requires forall k :: 0 <= k < |y| ==> !IsDigit(y[k])
    requires forall k :: 0 <= k < |z| ==> !IsDigit(z[k])
    ensures var t := "**" + y + "**" + z;
      forall k :: 0 <= k < |t| ==> !IsDigit(t[k])
  {
    var t := "**" + y + "**" + z;
    forall k | 0 <= k < |t|
      ensures !IsDigit(t[k])
    {
      if 2 <= k < 2 + |y| {
        assert t[k] == y[k - 2];
      } else if 4 + |y| <= k {
        assert t[k] == z[k - 4 - |y|];
      }
    }
  }

  /** `x` followed by a blank has no digits when `x` has none. */
  lemma BlankedHasNoDigits(x: string)
    requires forall k :: 0 <= k < |x| ==> !IsDigit(x[k])
    ensures forall k :: 0 <= k < |x + " "| ==> !IsDigit((x + " ")[k])
  {
    assert forall k :: 0 <= k < |x| ==> (x + " ")[k] == x[k];
  }

  lemma StarIsNotSpace()
    ensures '*' !in Whitespace
  {
  }

  /** `d. x d. **y**z` is cut into an empty lead, `x` with its blank, and
      the starred second point. */
  lemma TwoPointsSplit(d1: char, x: string, d2: char, y: string, z: string)
    requires IsDigit(d1) && IsDigit(d2)
    requires |x| > 0 && x[0] !in Whitespace
    requires forall k :: 0 <= k < |x| ==> !IsDigit(x[k])
    requires forall k :: 0 <= k < |y| ==> !IsDigit(y[k])
    requires forall k :: 0 <= k < |z| ==> !IsDigit(z[k])
    ensures Split([d1, '.', ' '] + (x + " ") + [d2, '.', ' '] + ("**" + y + "**" + z))
      == ["", x + " ", "**" + y + "**" + z]
  {
    var first, second := x + " ", "**" + y + "**" + z;
    BlankedHasNoDigits(x);
    StarredHasNoDigits(y, z);
    assert first[0] == x[0] && second[0] == '*';
    StarIsNotSpace();
    TwoItemSplit(d1, first, d2, second);
  }

  /** The trailing blank of the first point is stripped. */
  lemma StripBlanked(x: string)
    requires |x| > 0 && x[0] !in Whitespace && x[|x| - 1] !in Whitespace
    ensures Strip(x + " ") == x
  {
    StripCharsUnwraps("", x, " ", Whitespace);
    assert "" + x + " " == x + " ";
  }

  /** The starred point has nothing to strip. */
  lemma StripStarred(y: string, z: string)
    requires |z| > 0 ==> z[|z| - 1] !in Whitespace
    ensures Strip("**" + y + "**" + z) == "**" + y + "**" + z
  {
    var t := "**" + y + "**" + z;
    assert t[0] == '*';
    StarIsNotSpace();
    assert t[|t| - 1] !in Whitespace by {
      if |z| > 0 {
        assert t[|t| - 1] == z[|z| - 1];
      }
    }
    StripCharsUnwraps("", t, "", Whitespace);
    assert "" + t + "" == t;
  }

  /** Three parts, the first of them blank, give the other two stripped. */
  lemma PointsOfThree(a: string, b: string, c: string)
    requires Strip(a) == "" && |Strip(b)| > 0 && |Strip(c)| > 0
    ensures StrippedNonEmpty([a, b, c]) == [Strip(b), Strip(c)]
  {
    StrippedCons(a, [b, c]);
    StrippedCons(b, [c]);
    StrippedSingle(c);
    assert [a] + [b, c] == [a, b, c];
    assert [b] + [c] == [b, c];
  }

  /** The points of `d. x d. **y**z`: `x`, and the starred second point. */
  lemma TwoPoints(d1: char, x: string, d2: char, y: string, z: string)
    requires IsDigit(d1) && IsDigit(d2)
    requires |x| > 0 && x[0] !in Whitespace && x[|x| - 1] !in Whitespace
    requires forall k :: 0 <= k < |x| ==> !IsDigit(x[k])
    requires forall k :: 0 <= k < |y| ==> !IsDigit(y[k])
    requires forall k :: 0 <= k < |z| ==> !IsDigit(z[k])
    requires |z| > 0 ==> z[|z| - 1] !in Whitespace
    ensures Points([d1, '.', ' '] + (x + " ") + [d2, '.', ' '] + ("**" + y + "**" + z))
      == [x, "**" + y + "**" + z]
  {
    TwoPointsSplit(d1, x, d2, y, z);
    StripBlanked(x);
    StripStarred(y, z);
    assert Strip("") == "";
    PointsOfThree("", x + " ", "**" + y + "**" + z);
  }

  /** `**` can only start inside the text. */
  lemma NoStarsAnywhere(t: string)
    requires forall k :: 0 <= k < |t| ==> !StarsAt(t, k)
    ensures forall k :: !StarsAt(t, k)
  {
  }

  /** Two list items, the second one emphasised. */
  lemma TwoItems(x: string, y: string, z: string)
    requires forall k :: !StarsAt(x, k)
    requires '\n' !in y && (forall k :: !StarsAt(y, k)) && (|y| == 0 || y[|y| - 1] != '*')
    requires forall k :: !StarsAt(z, k)
    ensures ListItems([x, "**" + y + "**" + z])
      == "<li>" + x + "</li>" + ("<li>" + ("<strong>" + y + "</strong>" + z) + "</li>")
  {
    EmphasizeWithoutStars(x);
    EmphasizeSpan(y, z);
    EmphasizeWithoutStars(z);
    var items := [x, "**" + y + "**" + z];
    assert items[1..][1..] == [];
    assert ListItems(items[1..]) == ListItem(items[1]) + "";
  }

  /** Gathering the literal tags of the two-item list. */
  lemma TwoItemsHtml(x: string, y: string, z: string)
    ensures "<ol>" + ("<li>" + x + "</li>" + ("<li>" + ("<strong>" + y + "</strong>" + z) + "</li>")) + "</ol>"
      == "<ol><li>" + x + "</li><li><strong>" + y + "</strong>" + z + "</li></ol>"
  {
    assert "<ol>" + "<li>" == "<ol><li>";
    assert "</li>" + "<li>" + "<strong>" == "</li><li><strong>";
    assert "</li>" + "</ol>" == "</li></ol>";
  }

  /** A paragraph of two numbered points, the second emphasised, becomes a
      two-item list with a `<strong>` span in the second item. */
  lemma FormatTwoPoints(d1: char, x: string, d2: char, y: string, z: string)
    requires IsDigit(d1) && IsDigit(d2)
    requires |x| > 0 && x[0] !in Whitespace && x[|x| - 1] !in Whitespace
    requires forall k :: 0 <= k < |x| ==> !IsDigit(x[k]) && !StarsAt(x, k)
    requires forall k :: 0 <= k < |y| ==> !IsDigit(y[k]) && y[k] != '\n' && !StarsAt(y, k)
    requires |y| == 0 || y[|y| - 1] != '*'
    requires forall k :: 0 <= k < |z| ==> !IsDigit(z[k]) && !StarsAt(z, k)
    requires |z| > 0 ==> z[|z| - 1] !in Whitespace
    ensures FormatAiParagraph([d1, '.', ' '] + (x + " ") + [d2, '.', ' '] + ("**" + y + "**" + z))
      == "<ol><li>" + x + "</li><li><strong>" + y + "</strong>" + z + "</li></ol>"
  {
    TwoPoints(d1, x, d2, y, z);
    NoStarsAnywhere(x);
    NoStarsAnywhere(y);
    NoStarsAnywhere(z);
    TwoItems(x, y, z);
    TwoItemsHtml(x, y, z);
  }

  lemma ExampleInput()
    ensures ['1', '.', ' '] + ("Do X." + " ") + ['2', '.', ' '] + ("**" + "Do Y" + "**" + ".")
      == "1. Do X. 2. **Do Y**."
  {
  }

  lemma ExampleOutput()
    ensures "<ol><li>" + "Do X." + "</li><li><strong>" + "Do Y" + "</strong>" + "." + "</li></ol>"
      == "<ol><li>Do X.</li><li><strong>Do Y</strong>.</li></ol>"
  {
    assert "<ol><li>" + "Do X." == "<ol><li>Do X.";
    assert "<ol><li>Do X." + "</li><li><strong>" == "<ol><li>Do X.</li><li><strong>";
    assert "<ol><li>Do X.</li><li><strong>" + "Do Y" == "<ol><li>Do X.</li><li><strong>Do Y";
    assert "<ol><li>Do X.</li><li><strong>Do Y" + "</strong>"
      == "<ol><li>Do X.</li><li><strong>Do Y</strong>";
    assert "<ol><li>Do X.</li><li><strong>Do Y</strong>" + "."
      == "<ol><li>Do X.</li><li><strong>Do Y</strong>.";
    assert "<ol><li>Do X.</li><li><strong>Do Y</strong>." + "</li></ol>"
      == "<ol><li>Do X.</li><li><strong>Do Y</strong>.</li></ol>";
  }

  /** `1. Do X. 2. **Do Y**.` becomes a
      two-item list with `Do Y` in bold. */
  lemma TwoPointExample()
    ensures FormatAiParagraph("1. Do X. 2. **Do Y**.")
      == "<ol><li>Do X.</li><li><strong>Do Y</strong>.</li></ol>"
  {
    FormatTwoPoints('1', "Do X.", '2', "Do Y", ".");
    ExampleInput();
    ExampleOutput();
  }
}

=== FILE: paragraph_split.dfy ===
/** `re.split(r'\d+\.\s+', text)`: cutting a paragraph at its numbered-list
    markers, and `str.strip` with the empty fragments dropped. */
module ParagraphSplit {
  import opened PyStr

  /** `\d`, restricted to ASCII digits. */
  predicate IsDigit(c: char) {
    '0' <= c <= '9'
  }

  /** A whole match of `\d+\.\s+`. */
  predicate IsMarker(m: string) {
    exists d :: 1 <= d && d + 2 <= |m|
      && (forall k :: 0 <= k < d ==> IsDigit(m[k]))
      && m[d] == '.'
      && (forall k :: d < k < |m| ==> m[k] in Whitespace)
  }

  /** Length of the leading run of digits. */
  function DigitRun(s: string): (n: nat)
    ensures n <= |s|
    ensures forall k :: 0 <= k < n ==> IsDigit(s[k])
    ensures n < |s| ==> !IsDigit(s[n])
  {
    if |s| > 0 && IsDigit(s[0]) then 1 + DigitRun(s[1..]) else 0
  }

  /** Length of the leading run of whitespace. */
  function SpaceRun(s: string): (n: nat)
    ensures n <= |s|
    ensures forall k :: 0 <= k < n ==> s[k] in Whitespace
    ensures n < |s| ==> s[n] !in Whitespace
  {
    if |s| > 0 && s[0] in Whitespace then 1 + SpaceRun(s[1..]) else 0
  }

  /** The length of the match of `\d+\.\s+` at the start of `s`, 0 when
      there is none.  Both repetitions are greedy, so the match is the
      longest one: it is never followed by more whitespace. */
  function MarkerLength(s: string): (n: nat)
    ensures n <= |s|
  {
    var d := DigitRun(s);
    if 0 < d < |s| && s[d] == '.' then
      var w := SpaceRun(s[d + 1..]);
      if w > 0 then d + 1 + w else 0
    else 0
  }

  /** What `MarkerLength` measures is a whole match of `\d+\.\s+`, and the
      longest one: no whitespace follows it. */
  lemma MarkerLengthIsMarker(s: string)
    ensures var n := MarkerLength(s);
      n > 0 ==> IsMarker(s[..n]) && (n < |s| ==> s[n] !in Whitespace)
  {
    var n := MarkerLength(s);
    if n > 0 {
      var d := DigitRun(s);
      var w := SpaceRun(s[d + 1..]);
      assert forall k :: d < k < n ==> s[..n][k] == s[d + 1..][k - d - 1];
      assert forall k :: 0 <= k < d ==> s[..n][k] == s[k];
      assert s[..n][d] == '.';
      if n < |s| {
        assert s[n] == s[d + 1..][w];
      }
    }
  }

  /** The pieces of `s` between markers, found left to right as `re.split`
      does: a marker is looked for at each position in turn. */
  function Split(s: string): (parts: seq<string>)
    ensures |parts| >= 1
  {
    if |s| == 0 then [""]
    else if MarkerLength(s) > 0 then [""] + Split(s[MarkerLength(s)..])
    else
      var rest := Split(s[1..]);
      [[s[0]] + rest[0]] + rest[1..]
  }

  /** The markers `Split` cut at, in order. */
  function Markers(s: string): seq<string> {
    if |s| == 0 then []
    else if MarkerLength(s) > 0 then [s[..MarkerLength(s)]] + Markers(s[MarkerLength(s)..])
    else Markers(s[1..])
  }

  /** `parts[0] + seps[0] + parts[1] + ... + parts[n]` */
  function Interleave(parts: seq<string>, seps: seq<string>): string
    requires |parts| == |seps| + 1
  {
    if |seps| == 0 then parts[0]
    else parts[0] + seps[0] + Interleave(parts[1..], seps[1..])
  }

  lemma InterleaveCons(part: string, sep: string, parts: seq<string>, seps: seq<string>)
    requires |parts| == |seps| + 1
    ensures Interleave([part] + parts, [sep] + seps) == part + sep + Interleave(parts, seps)
  {
    assert ([part] + parts)[1..] == parts;
    assert ([sep] + seps)[1..] == seps;
  }

  lemma InterleaveConsChar(c: char, parts: seq<string>, seps: seq<string>)
    requires |parts| == |seps| + 1
    ensures Interleave([[c] + parts[0]] + parts[1..], seps) == [c] + Interleave(parts, seps)
  {
    var parts' := [[c] + parts[0]] + parts[1..];
    assert parts'[1..] == parts[1..];
  }

  /** Every cut `Split` makes is at a real marker. */
  lemma {:induction false} MarkersAreMarkers(s: string)
    ensures forall i :: 0 <= i < |Markers(s)| ==> IsMarker(Markers(s)[i])
  {
    if |s| == 0 {
    } else if MarkerLength(s) > 0 {
      var n := MarkerLength(s);
      MarkersAreMarkers(s[n..]);
      MarkerLengthIsMarker(s);
      assert Markers(s) == [s[..n]] + Markers(s[n..]);
    } else {
      MarkersAreMarkers(s[1..]);
    }
  }

  /** Splitting loses nothing: putting the markers back between the pieces
      gives the text again, and every cut is a real marker. */
  lemma {:induction false} SplitRoundTrip(s: string)
    ensures |Split(s)| == |Markers(s)| + 1
    ensures Interleave(Split(s), Markers(s)) == s
    ensures forall i :: 0 <= i < |Markers(s)| ==> IsMarker(Markers(s)[i])
  {
    MarkersAreMarkers(s);
    if |s| == 0 {
    } else if MarkerLength(s) > 0 {
      SplitRoundTrip(s[MarkerLength(s)..]);
      SplitAtMarker(s);
    } else {
      SplitRoundTrip(s[1..]);
      SplitAtChar(s);
    }
  }

  lemma SplitAtMarker(s: string)
    requires |s| > 0 && MarkerLength(s) > 0
    requires var t := s[MarkerLength(s)..];
      && |Split(t)| == |Markers(t)| + 1
      && Interleave(Split(t), Markers(t)) == t
    ensures |Split(s)| == |Markers(s)| + 1
    ensures Interleave(Split(s), Markers(s)) == s
  {
    var n := MarkerLength(s);
    var t := s[n..];
    assert Split(s) == [""] + Split(t);
    assert Markers(s) == [s[..n]] + Markers(t);
    InterleaveCons("", s[..n], Split(t), Markers(t));
    CutAndJoin(s, n);
  }

  /** Cutting a text in two and joining the halves gives it back. */
  lemma CutAndJoin(s: string, n: nat)
    requires n <= |s|
    ensures "" + s[..n] + s[n..] == s
  {
  }

  lemma SplitAtChar(s: string)
    requires |s| > 0 && MarkerLength(s) == 0
    requires var t := s[1..];
      && |Split(t)| == |Markers(t)| + 1
      && Interleave(Split(t), Markers(t)) == t
    ensures |Split(s)| == |Markers(s)| + 1
    ensures Interleave(Split(s), Markers(s)) == s
  {
    var t := s[1..];
    assert Markers(s) == Markers(t);
    InterleaveConsChar(s[0], Split(t), Markers(t));
    assert s == [s[0]] + t;
  }

  /** A marker found at the start of `t` is still found when more text
      follows. */
  lemma MarkerExtends(t: string, u: string)
    ensures MarkerLength(t) > 0 ==> MarkerLength(t + u) > 0
  {
    if MarkerLength(t) > 0 {
      var s := t + u;
      var d := DigitRun(t);
      assert forall k :: 0 <= k < |t| ==> s[k] == t[k];
      DigitRunPrefix(t, u);
      assert s[d + 1..][0] == t[d + 1..][0];
    }
  }

  lemma {:induction false} DigitRunPrefix(t: string, u: string)
    requires DigitRun(t) < |t|
    ensures DigitRun(t + u) == DigitRun(t)
  {
    if |t| > 0 && IsDigit(t[0]) {
      assert (t + u)[1..] == t[1..] + u;
      DigitRunPrefix(t[1..], u);
    }
  }

  /** The first piece is a prefix of the text. */
  lemma {:induction false} SplitHeadIsPrefix(s: string)
    ensures |Split(s)[0]| <= |s| && Split(s)[0] == s[..|Split(s)[0]|]
  {
    if |s| > 0 && MarkerLength(s) == 0 {
      SplitHeadIsPrefix(s[1..]);
      var m := |Split(s[1..])[0]|;
      assert Split(s)[0] == [s[0]] + s[1..][..m];
      assert [s[0]] + s[1..][..m] == s[..m + 1];
    }
  }

  /** No marker starts anywhere inside `p`. */
  predicate NoMarkerIn(p: string) {
    forall k :: 0 <= k < |p| ==> MarkerLength(p[k..]) == 0
  }

  /** A property of every element survives putting one more element that
      has it in front. */
  lemma AllCons<T>(x: T, rest: seq<T>, P: T -> bool)
    requires P(x) && forall i :: 0 <= i < |rest| ==> P(rest[i])
    ensures forall i :: 0 <= i < |[x] + rest| ==> P(([x] + rest)[i])
  {
    assert forall i :: 1 <= i < |[x] + rest| ==> ([x] + rest)[i] == rest[i - 1];
  }

  /** A property of every element holds for every element of a tail. */
  lemma AllTail<T>(xs: seq<T>, P: T -> bool)
    requires |xs| > 0 && forall i :: 0 <= i < |xs| ==> P(xs[i])
    ensures forall i :: 0 <= i < |xs[1..]| ==> P(xs[1..][i])
  {
    assert forall i :: 0 <= i < |xs[1..]| ==> xs[1..][i] == xs[i + 1];
  }

  /** The pieces of a text with a marker at its start: an empty one, then
      the pieces of the rest. */
  lemma SplitOnMarker(s: string)
    requires |s| > 0 && MarkerLength(s) > 0
    ensures Split(s) == [""] + Split(s[MarkerLength(s)..])
  {
  }

  /** The pieces of a text without a marker at its start: its first
      character joins the first piece of the rest. */
  lemma SplitOnChar(s: string)
    requires |s| > 0 && MarkerLength(s) == 0
    ensures Split(s) == [[s[0]] + Split(s[1..])[0]] + Split(s[1..])[1..]
  {
  }

  /** Leftmost matching: no marker starts anywhere inside a piece. */
  lemma {:induction false} SplitPiecesHaveNoMarker(s: string)
    ensures forall i :: 0 <= i < |Split(s)| ==> NoMarkerIn(Split(s)[i])
  {
    if |s| == 0 {
      assert Split(s) == [""];
    } else if MarkerLength(s) > 0 {
      var t := s[MarkerLength(s)..];
      SplitPiecesHaveNoMarker(t);
      SplitOnMarker(s);
      AllCons("", Split(t), NoMarkerIn);
    } else {
      var rest := Split(s[1..]);
      SplitPiecesHaveNoMarker(s[1..]);
      HeadHasNoMarker(s);
      SplitOnChar(s);
      AllTail(rest, NoMarkerIn);
      AllCons([s[0]] + rest[0], rest[1..], NoMarkerIn);
    }
  }

  lemma HeadHasNoMarker(s: string)
    requires |s| > 0 && MarkerLength(s) == 0
    requires NoMarkerIn(Split(s[1..])[0])
    ensures NoMarkerIn(Split(s)[0])
  {
    var rest := Split(s[1..]);
    var head := Split(s)[0];
    SplitOnChar(s);
    assert head == [s[0]] + rest[0];
    forall k | 0 <= k < |head|
      ensures MarkerLength(head[k..]) == 0
    {
      if k > 0 {
        assert head[k..] == rest[0][k - 1..];
      } else {
        HeadStartsWithoutMarker(s);
      }
    }
  }

  lemma HeadStartsWithoutMarker(s: string)
    requires |s| > 0 && MarkerLength(s) == 0
    ensures MarkerLength(Split(s)[0]) == 0
  {
    SplitHeadIsPrefix(s);
    MarkerNotInPrefix(s, |Split(s)[0]|);
  }

  /** No marker at the start of a text means none at the start of any of
      its prefixes. */
  lemma MarkerNotInPrefix(s: string, n: nat)
    requires n <= |s| && MarkerLength(s) == 0
    ensures MarkerLength(s[..n]) == 0
  {
    assert s[..n] + s[n..] == s;
    MarkerExtends(s[..n], s[n..]);
  }

  /** A match of `\d+\.\s+` at the start of `s` is never longer than the
      one `MarkerLength` measures: a marker at the start is always found,
      and at its longest. */
  lemma LongestMarker(s: string, n: nat)
    requires 0 < n <= |s| && IsMarker(s[..n])
    ensures n <= MarkerLength(s)
  {
    var m := s[..n];
    var d :| 1 <= d && d + 2 <= |m|
      && (forall k :: 0 <= k < d ==> IsDigit(m[k]))
      && m[d] == '.'
      && (forall k :: d < k < |m| ==> m[k] in Whitespace);
    assert forall k :: 0 <= k < n ==> m[k] == s[k];
    assert !IsDigit(s[d]);
    var t := s[d + 1..];
    assert forall k :: 0 <= k < n - d - 1 ==> t[k] == m[d + 1 + k];
  }

  /** What follows piece `i` of `parts` interleaved with `seps`: the next
      cut and everything after it, nothing after the last piece. */
  function After(parts: seq<string>, seps: seq<string>, i: nat): string
    requires |parts| == |seps| + 1 && i < |parts|
  {
    if i == |seps| then "" else seps[i] + Interleave(parts[i + 1..], seps[i + 1..])
  }

  /** No marker starts inside piece `i`, reading on into the text that
      follows it. */
  predicate PieceClear(parts: seq<string>, seps: seq<string>, i: nat)
    requires |parts| == |seps| + 1 && i < |parts|
  {
    forall k :: 0 <= k < |parts[i]| ==> MarkerLength((parts[i] + After(parts, seps, i))[k..]) == 0
  }

  /** Cut `i` is non-empty and is exactly the match of `\d+\.\s+` that
      starts where it does, in the text that follows. */
  predicate CutIsMatch(parts: seq<string>, seps: seq<string>, i: nat)
    requires |parts| == |seps| + 1 && i < |seps|
  {
    0 < |seps[i]| && MarkerLength(seps[i] + Interleave(parts[i + 1..], seps[i + 1..])) == |seps[i]|
  }

  lemma InterleaveAfter(parts: seq<string>, seps: seq<string>)
    requires |parts| == |seps| + 1
    ensures Interleave(parts, seps) == parts[0] + After(parts, seps, 0)
  {
    if |seps| == 0 {
      assert parts[0] + "" == parts[0];
    }
  }

  /** Piece `i` keeps its place, one further on, behind a new empty piece
      and cut `m`; so does what follows it. */
  lemma PieceShiftMarker(m: string, parts: seq<string>, seps: seq<string>, i: nat)
    requires |parts| == |seps| + 1 && i < |parts|
    requires PieceClear(parts, seps, i)
    ensures PieceClear([""] + parts, [m] + seps, i + 1)
  {
    var parts', seps' := [""] + parts, [m] + seps;
    assert parts'[i + 1] == parts[i];
    if i < |seps| {
      assert seps'[i + 1] == seps[i];
      assert parts'[i + 2..] == parts[i + 1..];
      assert seps'[i + 2..] == seps[i + 1..];
    }
    assert After(parts', seps', i + 1) == After(parts, seps, i);
  }

  /** Cut `i` keeps its place, one further on, behind a new empty piece and
      cut `m`. */
  lemma CutShiftMarker(m: string, parts: seq<string>, seps: seq<string>, i: nat)
    requires |parts| == |seps| + 1 && i < |seps|
    requires CutIsMatch(parts, seps, i)
    ensures CutIsMatch([""] + parts, [m] + seps, i + 1)
  {
    var parts', seps' := [""] + parts, [m] + seps;
    assert seps'[i + 1] == seps[i];
    assert parts'[i + 2..] == parts[i + 1..];
    assert seps'[i + 2..] == seps[i + 1..];
  }

  /** Putting an empty piece and a cut `m` in front keeps every piece clear
      and every cut a whole match, when `m` is the whole match in front of
      the text. */
  lemma ClearAfterMarker(m: string, parts: seq<string>, seps: seq<string>)
    requires |parts| == |seps| + 1
    requires forall i :: 0 <= i < |parts| ==> PieceClear(parts, seps, i)
    requires forall i :: 0 <= i < |seps| ==> CutIsMatch(parts, seps, i)
    requires 0 < |m| && MarkerLength(m + Interleave(parts, seps)) == |m|
    ensures forall i :: 0 <= i < |parts| + 1 ==> PieceClear([""] + parts, [m] + seps, i)
    ensures forall i :: 0 <= i < |seps| + 1 ==> CutIsMatch([""] + parts, [m] + seps, i)
  {
    var parts', seps' := [""] + parts, [m] + seps;
    forall i | 0 <= i < |parts'|
      ensures PieceClear(parts', seps', i)
    {
      if i > 0 {
        PieceShiftMarker(m, parts, seps, i - 1);
      }
    }
    forall i | 0 <= i < |seps'|
      ensures CutIsMatch(parts', seps', i)
    {
      if i == 0 {
        assert parts'[1..] == parts && seps'[1..] == seps;
      } else {
        CutShiftMarker(m, parts, seps, i - 1);
      }
    }
  }

  /** Piece `i`, not the first, is untouched by a character put in front
      of the first piece; so is what follows it. */
  lemma PieceShiftChar(c: char, parts: seq<string>, seps: seq<string>, i: nat)
    requires |parts| == |seps| + 1 && 0 < i < |parts|
    requires PieceClear(parts, seps, i)
    ensures PieceClear([[c] + parts[0]] + parts[1..], seps, i)
  {
    var parts' := [[c] + parts[0]] + parts[1..];
    assert parts'[i] == parts[i];
    if i < |seps| {
      assert parts'[i + 1..] == parts[i + 1..];
    }
    assert After(parts', seps, i) == After(parts, seps, i);
  }

  lemma AfterHeadChar(c: char, parts: seq<string>, seps: seq<string>)
    requires |parts| == |seps| + 1
    ensures After([[c] + parts[0]] + parts[1..], seps, 0) == After(parts, seps, 0)
  {
    if 0 < |seps| {
      assert ([[c] + parts[0]] + parts[1..])[1..] == parts[1..];
    }
  }

  /** Dropping `k > 0` characters of `[c] + x` drops `k - 1` of `x`. */
  lemma ConsDrop(c: char, x: string, k: nat)
    requires 0 < k <= |x| + 1
    ensures ([c] + x)[k..] == x[k - 1..]
  {
  }

  /** The first piece, with a character put in front at which no marker
      starts, stays clear. */
  lemma HeadClearChar(c: char, parts: seq<string>, seps: seq<string>)
    requires |parts| == |seps| + 1
    requires PieceClear(parts, seps, 0)
    requires MarkerLength([c] + Interleave(parts, seps)) == 0
    ensures PieceClear([[c] + parts[0]] + parts[1..], seps, 0)
  {
    var head := [c] + parts[0];
    var a := After(parts, seps, 0);
    AfterHeadChar(c, parts, seps);
    InterleaveAfter(parts, seps);
    var text := parts[0] + a;
    assert head + a == [c] + text;
    forall k | 0 <= k < |head|
      ensures MarkerLength((head + a)[k..]) == 0
    {
      if k > 0 {
        ConsDrop(c, text, k);
        assert MarkerLength(text[k - 1..]) == 0;
      }
    }
  }

  /** Cut `i` is untouched by a character put in front of the first piece. */
  lemma CutShiftChar(c: char, parts: seq<string>, seps: seq<string>, i: nat)
    requires |parts| == |seps| + 1 && i < |seps|
    requires CutIsMatch(parts, seps, i)
    ensures CutIsMatch([[c] + parts[0]] + parts[1..], seps, i)
  {
    var parts' := [[c] + parts[0]] + parts[1..];
    assert parts'[i + 1..] == parts[i + 1..];
  }

  /** Putting a character in front of the first piece keeps every piece
      clear and every cut a whole match, when no marker starts at that
      character. */
  lemma ClearAfterChar(c: char, parts: seq<string>, seps: seq<string>)
    requires |parts| == |seps| + 1
    requires forall i :: 0 <= i < |parts| ==> PieceClear(parts, seps, i)
    requires forall i :: 0 <= i < |seps| ==> CutIsMatch(parts, seps, i)
    requires MarkerLength([c] + Interleave(parts, seps)) == 0
    ensures var parts' := [[c] + parts[0]] + parts[1..];
      && (forall i :: 0 <= i < |parts'| ==> PieceClear(parts', seps, i))
      && (forall i :: 0 <= i < |seps| ==> CutIsMatch(parts', seps, i))
  {
    var parts' := [[c] + parts[0]] + parts[1..];
    forall i | 0 <= i < |parts'|
      ensures PieceClear(parts', seps, i)
    {
      if i > 0 {
        PieceShiftChar(c, parts, seps, i);
      } else {
        HeadClearChar(c, parts, seps);
      }
    }
    forall i | 0 <= i < |seps|
      ensures CutIsMatch(parts', seps, i)
    {
      CutShiftChar(c, parts, seps, i);
    }
  }

  /** `re.split` matches leftmost and longest: reading on from any position
      inside a piece, no marker starts there, and every cut is the whole
      match that starts where it does. */
  lemma {:induction false} SplitIsLeftmostLongest(s: string)
    ensures |Split(s)| == |Markers(s)| + 1
    ensures forall i :: 0 <= i < |Split(s)| ==> PieceClear(Split(s), Markers(s), i)
    ensures forall i :: 0 <= i < |Markers(s)| ==> CutIsMatch(Split(s), Markers(s), i)
  {
    SplitRoundTrip(s);
    if |s| == 0 {
      assert Split(s) == [""];
      assert PieceClear(Split(s), Markers(s), 0);
    } else if MarkerLength(s) > 0 {
      var n := MarkerLength(s);
      var t := s[n..];
      SplitIsLeftmostLongest(t);
      SplitRoundTrip(t);
      SplitOnMarker(s);
      assert Markers(s) == [s[..n]] + Markers(t);
      CutAndJoin(s, n);
      ClearAfterMarker(s[..n], Split(t), Markers(t));
    } else {
      var t := s[1..];
      SplitIsLeftmostLongest(t);
      SplitRoundTrip(t);
      SplitOnChar(s);
      assert Markers(s) == Markers(t);
      assert [s[0]] + t == s;
      ClearAfterChar(s[0], Split(t), Markers(t));
    }
  }

  /** A whole match is followed by the end of the text or by a character
      other than whitespace. */
  lemma MatchEndsAtNonWhitespace(m: string, a: string)
    requires 0 < |m| && MarkerLength(m + a) == |m|
    ensures a == [] || a[0] !in Whitespace
  {
    MarkerLengthIsMarker(m + a);
    if a != [] {
      assert (m + a)[|m|] == a[0];
    }
  }

  /** What follows cut `i` is empty or starts with a character other than
      whitespace. */
  predicate CutFollowedByNonSpace(parts: seq<string>, seps: seq<string>, i: nat)
    requires |parts| == |seps| + 1 && i < |seps|
  {
    var a := Interleave(parts[i + 1..], seps[i + 1..]);
    a == [] || a[0] !in Whitespace
  }

  /** Every cut is followed by the end of the text or by a character other
      than whitespace: the `\s+` of a marker takes all the whitespace. */
  lemma CutsAreGreedy(s: string)
    ensures |Split(s)| == |Markers(s)| + 1
    ensures forall i :: 0 <= i < |Markers(s)| ==> CutFollowedByNonSpace(Split(s), Markers(s), i)
  {
    SplitIsLeftmostLongest(s);
    var parts, seps := Split(s), Markers(s);
    forall i | 0 <= i < |seps|
      ensures CutFollowedByNonSpace(parts, seps, i)
    {
      assert CutIsMatch(parts, seps, i);
      MatchEndsAtNonWhitespace(seps[i], Interleave(parts[i + 1..], seps[i + 1..]));
    }
  }

  /** A paragraph without digits is not cut at all. */
  lemma {:induction false} SplitWithoutDigits(s: string)
    requires forall k :: 0 <= k < |s| ==> !IsDigit(s[k])
    ensures Split(s) == [s]
  {
    if |s| > 0 {
      SplitWithoutDigits(s[1..]);
      assert [s[0]] + s[1..] == s;
    }
  }

  /** `[p.strip() for p in parts if p.strip()]` */
  function StrippedNonEmpty(parts: seq<string>): (points: seq<string>)
    ensures |points| <= |parts|
    ensures forall i :: 0 <= i < |points| ==>
      |points[i]| > 0 && points[i][0] !in Whitespace && points[i][|points[i]| - 1] !in Whitespace
  {
    if |parts| == 0 then []
    else
      var t := Strip(parts[0]);
      (if |t| > 0 then [t] else []) + StrippedNonEmpty(parts[1..])
  }

  /** Stripping works part by part: the points of two runs of parts are
      the points of the first run followed by those of the second. */
  lemma {:induction false} StrippedNonEmptyConcat(a: seq<string>, b: seq<string>)
    ensures StrippedNonEmpty(a + b) == StrippedNonEmpty(a) + StrippedNonEmpty(b)
  {
    if |a| == 0 {
      assert a + b == b;
    } else {
      var head := if |Strip(a[0])| > 0 then [Strip(a[0])] else [];
      calc {
        StrippedNonEmpty(a + b);
        { ConsRegroup(a, b); }
        StrippedNonEmpty([a[0]] + (a[1..] + b));
        { StrippedCons(a[0], a[1..] + b); }
        head + StrippedNonEmpty(a[1..] + b);
        { StrippedNonEmptyConcat(a[1..], b); }
        head + (StrippedNonEmpty(a[1..]) + StrippedNonEmpty(b));
        (head + StrippedNonEmpty(a[1..])) + StrippedNonEmpty(b);
        { StrippedCons(a[0], a[1..]); ConsRegroup(a, b); }
        StrippedNonEmpty(a) + StrippedNonEmpty(b);
      }
    }
  }

  lemma ConsRegroup(a: seq<string>, b: seq<string>)
    requires |a| > 0
    ensures a == [a[0]] + a[1..] && a + b == [a[0]] + (a[1..] + b)
  {
  }

  /** One part in front contributes its stripped self, when non-empty. */
  lemma StrippedCons(p: string, rest: seq<string>)
    ensures StrippedNonEmpty([p] + rest)
      == (if |Strip(p)| > 0 then [Strip(p)] else []) + StrippedNonEmpty(rest)
  {
    assert ([p] + rest)[0] == p && ([p] + rest)[1..] == rest;
  }

  /** A single part gives at most its stripped self. */
  lemma StrippedSingle(p: string)
    ensures StrippedNonEmpty([p]) == if |Strip(p)| > 0 then [Strip(p)] else []
  {
    assert [p][1..] == [];
  }

  /** No whitespace character is a digit. */
  lemma WhitespaceIsNotDigit(c: char)
    requires c in Whitespace
    ensures !IsDigit(c)
  {
  }

  /** The list points of a paragraph. */
  function Points(paragraph: string): seq<string> {
    StrippedNonEmpty(Split(paragraph))
  }

  /** A character missing from the paragraph is missing from every piece. */
  lemma {:induction false} SplitKeepsAbsence(s: string, c: char)
    requires c !in s
    ensures forall i :: 0 <= i < |Split(s)| ==> c !in Split(s)[i]
  {
    var lacks := (p: string) => c !in p;
    if |s| == 0 {
      assert Split(s) == [""];
    } else if MarkerLength(s) > 0 {
      var t := s[MarkerLength(s)..];
      assert c !in t;
      SplitKeepsAbsence(t, c);
      SplitOnMarker(s);
      AllCons("", Split(t), lacks);
    } else {
      var rest := Split(s[1..]);
      assert c !in s[1..];
      SplitKeepsAbsence(s[1..], c);
      SplitOnChar(s);
      AllTail(rest, lacks);
      assert c !in [s[0]] + rest[0];
      AllCons([s[0]] + rest[0], rest[1..], lacks);
    }
  }

  lemma {:induction false} StrippedKeepsAbsence(parts: seq<string>, c: char)
    requires forall i :: 0 <= i < |parts| ==> c !in parts[i]
    ensures forall i :: 0 <= i < |StrippedNonEmpty(parts)| ==> c !in StrippedNonEmpty(parts)[i]
  {
    if |parts| > 0 {
      StripCharsKeepsAbsence(parts[0], Whitespace, c);
      StrippedKeepsAbsence(parts[1..], c);
    }
  }

  /** The points of a paragraph only hold characters of the paragraph. */
  lemma PointsKeepAbsence(paragraph: string, c: char)
    requires c !in paragraph
    ensures forall i :: 0 <= i < |Points(paragraph)| ==> c !in Points(paragraph)[i]
  {
    SplitKeepsAbsence(paragraph, c);
    StrippedKeepsAbsence(Split(paragraph), c);
  }

  /** Text without digits in front of `b` just extends the first piece of
      `b`. */
  lemma {:induction false} SplitAfterNoDigits(a: string, b: string)
    requires forall k :: 0 <= k < |a| ==> !IsDigit(a[k])
    ensures Split(a + b) == [a + Split(b)[0]] + Split(b)[1..]
  {
    if |a| == 0 {
      assert a + b == b && a + Split(b)[0] == Split(b)[0];
      assert Split(b) == [Split(b)[0]] + Split(b)[1..];
    } else {
      var s := a + b;
      ConsSplit(a, b);
      assert DigitRun(s) == 0;
      SplitOnChar(s);
      SplitAfterNoDigits(a[1..], b);
      ConsJoin(a, Split(b)[0]);
    }
  }

  lemma ConsSplit(a: string, b: string)
    requires |a| > 0
    ensures (a + b)[0] == a[0] && (a + b)[1..] == a[1..] + b
  {
  }

  lemma ConsJoin(a: string, b: string)
    requires |a| > 0
    ensures [a[0]] + (a[1..] + b) == a + b
  {
  }

  /** A one-digit marker `d. ` in front of text that does not start with
      whitespace is cut off as a whole. */
  lemma SplitAfterMarker(d: char, b: string)
    requires IsDigit(d) && |b| > 0 && b[0] !in Whitespace
    ensures Split([d, '.', ' '] + b) == [""] + Split(b)
  {
    var s := [d, '.', ' '] + b;
    assert s[1] == '.' && !IsDigit(s[1]);
    assert DigitRun(s[1..]) == 0;
    assert DigitRun(s) == 1;
    assert s[2..] == [' '] + b && s[2..][1..] == b;
    assert ' ' in Whitespace;
    assert SpaceRun(b) == 0;
    assert SpaceRun(s[2..]) == 1;
    assert MarkerLength(s) == 3;
    assert s[3..] == b;
  }

  /** A one-item list `d. y` splits into an empty lead and the item text. */
  lemma OneItemSplit(d: char, y: string)
    requires IsDigit(d) && |y| > 0 && y[0] !in Whitespace
    requires forall k :: 0 <= k < |y| ==> !IsDigit(y[k])
    ensures Split([d, '.', ' '] + y) == ["", y]
  {
    SplitAfterMarker(d, y);
    SplitWithoutDigits(y);
  }

  lemma Regroup(p: string, x: string, q: string, y: string)
    ensures p + x + q + y == p + (x + (q + y))
  {
  }

  /** A two-item list `d1. ` + x + `d2. ` + y, the second marker directly
      after `x`, splits into an empty lead and the two item texts, whatever
      the digits. */
  lemma TwoItemSplit(d1: char, x: string, d2: char, y: string)
    requires IsDigit(d1) && IsDigit(d2)
    requires |x| > 0 && x[0] !in Whitespace && |y| > 0 && y[0] !in Whitespace
    requires forall k :: 0 <= k < |x| ==> !IsDigit(x[k])
    requires forall k :: 0 <= k < |y| ==> !IsDigit(y[k])
    ensures Split([d1, '.', ' '] + x + [d2, '.', ' '] + y) == ["", x, y]
  {
    var tail := [d2, '.', ' '] + y;
    var rest := x + tail;
    Regroup([d1, '.', ' '], x, [d2, '.', ' '], y);
    assert rest[0] == x[0];
    SplitAfterMarker(d1, rest);
    OneItemSplit(d2, y);
    SplitAfterNoDigits(x, tail);
    assert Split(tail)[0] == "" && Split(tail)[1..] == [y];
    assert x + "" == x;
    assert Split(rest) == [x, y];
  }
}

=== FILE: pyops.dfy ===
/** The few Python built-ins the HAR normaliser leans on, written out with
    the exceptions they raise: `dict.get`, the `or` operator, truthiness,
    `float()`, `int()` and subscripting with `[0]`. */
module PyOps {
  import opened Wrappers
  import opened JsonValues

  /** The exception classes the normaliser can raise. */
  datatype PyError = AttributeError | TypeError | IndexError | KeyError | ValueError

  /** How `float(s)` and `int(s)` read a string.  Python's number syntax is
      not part of this model, so callers supply it. */
  datatype NumParse = NumParse(toFloat: string -> Option<real>, toInt: string -> Option<int>)

  /** Python truthiness: `None`, `False`, zero, and empty strings, lists and
      dicts are false. */
  predicate Truthy(v: Json) {
    match v
    case JNull => false
    case JBool(b) => b
    case JNum(x) => x != 0.0
    case JStr(s) => |s| > 0
    case JArr(xs) => |xs| > 0
    case JObj(m) => |m| > 0
  }

  /** `v or alt`: the first operand when it is truthy, else the second. */
  function Or(v: Json, alt: Json): (r: Json)
    ensures Truthy(v) ==> r == v
    ensures !Truthy(v) ==> r == alt
  {
    if Truthy(v) then v else alt
  }

  /** `o.get(key, default)`.  Only dictionaries have `get`; anything else
      raises AttributeError. */
  function Get(o: Json, key: string, default: Json): (r: Result<Json, PyError>)
    ensures r.Success? <==> o.JObj?
    ensures o.JObj? && key in o.fields ==> r == Success(o.fields[key])
    ensures o.JObj? && key !in o.fields ==> r == Success(default)
    ensures !o.JObj? ==> r == Failure(AttributeError)
  {
    match o
    case JObj(m) => Success(if key in m then m[key] else default)
    case _ => Failure(AttributeError)
  }

  /** `int()` of a float truncates toward zero. */
  function Trunc(x: real): (r: int)
    ensures 0.0 <= x ==> r as real <= x < r as real + 1.0
    ensures x < 0.0 ==> r as real - 1.0 < x <= r as real
  {
    if 0.0 <= x then x.Floor else -((-x).Floor)
  }

  /** `float(v)`: numbers and booleans convert, strings go through the
      supplied parser (ValueError when it refuses), the rest is a TypeError. */
  function Float(v: Json, np: NumParse): (r: Result<real, PyError>)
    ensures r.Success? <==> FloatConvertible(v, np)
  {
    match v
    case JNum(x) => Success(x)
    case JBool(b) => Success(if b then 1.0 else 0.0)
    case JStr(s) =>
      (match np.toFloat(s)
       case Some(x) => Success(x)
       case None => Failure(ValueError))
    case _ => Failure(TypeError)
  }

  /** `int(v)`: like `float`, but a float is truncated toward zero. */
  function Int(v: Json, np: NumParse): (r: Result<int, PyError>)
    ensures r.Success? <==> IntConvertible(v, np)
  {
    match v
    case JNum(x) => Success(Trunc(x))
    case JBool(b) => Success(if b then 1 else 0)
    case JStr(s) =>
      (match np.toInt(s)
       case Some(n) => Success(n)
       case None => Failure(ValueError))
    case _ => Failure(TypeError)
  }

  /** What `float(v)` accepts. */
  predicate FloatConvertible(v: Json, np: NumParse) {
    v.JNum? || v.JBool? || (v.JStr? && np.toFloat(v.s).Some?)
  }

  /** What `int(v)` accepts. */
  predicate IntConvertible(v: Json, np: NumParse) {
    v.JNum? || v.JBool? || (v.JStr? && np.toInt(v.s).Some?)
  }

  /** `v[0]`: the head of a list or the first character of a string;
      an empty one raises IndexError, a dict (whose keys are strings)
      KeyError, a number, boolean or None TypeError. */
  function Index0(v: Json): Result<Json, PyError> {
    match v
    case JArr(xs) => if |xs| > 0 then Success(xs[0]) else Failure(IndexError)
    case JStr(s) => if |s| > 0 then Success(JStr(s[..1])) else Failure(IndexError)
    case JObj(_) => Failure(KeyError)
    case _ => Failure(TypeError)
  }

}

=== FILE: pystr.dfy ===
/** Python's `str.strip`, with and without an explicit character set. */
module PyStr {

  /** The characters for which `str.isspace()` holds.  Both `str.strip()`
      and the regular-expression class `\s` use exactly this set. */
  const Whitespace: set<char> := {
    '\t', '\n', '\U{000B}', '\U{000C}', '\r',
    '\U{001C}', '\U{001D}', '\U{001E}', '\U{001F}', ' ',
    '\U{0085}', '\U{00A0}', '\U{1680}',
    '\U{2000}', '\U{2001}', '\U{2002}', '\U{2003}', '\U{2004}', '\U{2005}',
    '\U{2006}', '\U{2007}', '\U{2008}', '\U{2009}', '\U{200A}',
    '\U{2028}', '\U{2029}', '\U{202F}', '\U{205F}', '\U{3000}'
  }

  /** The end of the run of characters of `cs` that starts at `i`. */
  function RunEnd(s: string, cs: set<char>, i: nat): (n: nat)
    requires i <= |s|
    ensures i <= n <= |s|
    ensures forall k :: i <= k < n ==> s[k] in cs
    ensures n < |s| ==> s[n] !in cs
    decreases |s| - i
  {
    if i < |s| && s[i] in cs then RunEnd(s, cs, i + 1) else i
  }

  /** The start of the run of characters of `cs` that ends at `hi`, looking
      no further back than `lo`. */
  function RunStart(s: string, cs: set<char>, lo: nat, hi: nat): (n: nat)
    requires lo <= hi <= |s|
    ensures lo <= n <= hi
    ensures forall k :: n <= k < hi ==> s[k] in cs
    ensures n > lo ==> s[n - 1] !in cs
    decreases hi
  {
    if hi > lo && s[hi - 1] in cs then RunStart(s, cs, lo, hi - 1) else hi
  }

  /** `s.strip(cs)`: drops the longest prefix, then the longest suffix, made
      of characters of `cs`. */
  function StripChars(s: string, cs: set<char>): (r: string)
    ensures |r| > 0 ==> r[0] !in cs && r[|r| - 1] !in cs
  {
    var i := RunEnd(s, cs, 0);
    var j := RunStart(s, cs, i, |s|);
    s[i..j]
  }

  /** `s.strip()`. */
  function Strip(s: string): string {
    StripChars(s, Whitespace)
  }

  /** `s.strip(cs)` is the slice `s[i..j]` that keeps everything between the
      stripped ends: what goes is made of `cs`, and the kept part neither
      starts nor ends with a character of `cs`. */
  lemma StripCharsIsSlice(s: string, cs: set<char>) returns (i: nat, j: nat)
    ensures i <= j <= |s| && StripChars(s, cs) == s[i..j]
    ensures forall k :: 0 <= k < i ==> s[k] in cs
    ensures forall k :: j <= k < |s| ==> s[k] in cs
    ensures i < j ==> s[i] !in cs && s[j - 1] !in cs
  {
    i := RunEnd(s, cs, 0);
    j := RunStart(s, cs, i, |s|);
  }

  /** Stripping leaves nothing exactly when every character is in `cs`. */
  lemma StripCharsEmptyIff(s: string, cs: set<char>)
    ensures StripChars(s, cs) == [] <==> forall k :: 0 <= k < |s| ==> s[k] in cs
  {
    var i, j := StripCharsIsSlice(s, cs);
  }

  /** Stripping only removes characters, so a character absent from `s` is
      absent from the result. */
  lemma StripCharsKeepsAbsence(s: string, cs: set<char>, c: char)
    requires c !in s
    ensures c !in StripChars(s, cs)
  {
    var i, j := StripCharsIsSlice(s, cs);
  }

  /** Stripping `cs` from text wrapped in `cs` on both sides, whose own
      ends are not in `cs`, leaves the text. */
  lemma StripCharsUnwraps(lead: string, body: string, trail: string, cs: set<char>)
    requires forall k :: 0 <= k < |lead| ==> lead[k] in cs
    requires forall k :: 0 <= k < |trail| ==> trail[k] in cs
    requires |body| > 0 && body[0] !in cs && body[|body| - 1] !in cs
    ensures StripChars(lead + body + trail, cs) == body
  {
    var s := lead + body + trail;
    var i, j := StripCharsIsSlice(s, cs);
    var m := |lead| + |body|;
    assert s[|lead|] == body[0] && s[m - 1] == body[|body| - 1];
    assert forall k :: 0 <= k < |lead| ==> s[k] == lead[k];
    assert i == |lead|;
    assert forall k :: m <= k < |s| ==> s[k] == trail[k - m];
    assert j == m;
    assert s[i..j] == body;
  }

  /** A slice of a slice is a slice. */
  lemma SliceOfSlice(s: string, i: nat, j: nat, m: nat, n: nat)
    requires i <= j <= |s| && m <= n <= j - i
    ensures s[i..j][m..n] == s[i + m..i + n]
  {
    assert forall k :: 0 <= k < n - m ==> s[i..j][m..n][k] == s[i + m + k];
  }

  /** What the inner slice `t[m..n]` of `t == s[i..j]` leaves behind lies
      in `cs` when what it leaves of `t` does. */
  lemma InnerCuts(s: string, i: nat, j: nat, m: nat, n: nat, cs: set<char>)
    requires i <= j <= |s| && m <= n <= j - i
    requires forall k :: 0 <= k < m ==> s[i..j][k] in cs
    requires forall k :: n <= k < j - i ==> s[i..j][k] in cs
    ensures forall k :: i <= k < i + m ==> s[k] in cs
    ensures forall k :: i + n <= k < j ==> s[k] in cs
  {
    forall k | i <= k < i + m
      ensures s[k] in cs
    {
      assert s[k] == s[i..j][k - i];
    }
    forall k | i + n <= k < j
      ensures s[k] in cs
    {
      assert s[k] == s[i..j][k - i];
    }
  }

  /** `s.strip(a).strip(b)` is a slice of `s`; what goes is made of `a`
      and `b`. */
  lemma StripTwiceIsSlice(s: string, a: set<char>, b: set<char>) returns (i: nat, j: nat)
    ensures i <= j <= |s| && StripChars(StripChars(s, a), b) == s[i..j]
    ensures forall k :: 0 <= k < i ==> s[k] in a || s[k] in b
    ensures forall k :: j <= k < |s| ==> s[k] in a || s[k] in b
  {
    var i1, j1 := StripCharsIsSlice(s, a);
    var i2, j2 := StripCharsIsSlice(s[i1..j1], b);
    SliceOfSlice(s, i1, j1, i2, j2);
    InnerCuts(s, i1, j1, i2, j2, b);
    i, j := i1 + i2, i1 + j2;
  }

  /** Stripping `a` and then `b` from `lead + open + body + close + trail`
      leaves `body` when the outer parts are made of `a`, the inner of `b`
      only, and `body` neither starts nor ends with either. */
  lemma StripTwiceUnwraps(lead: string, open: string, body: string, close: string, trail: string,
                          a: set<char>, b: set<char>)
    requires forall k :: 0 <= k < |lead| ==> lead[k] in a
    requires forall k :: 0 <= k < |trail| ==> trail[k] in a
    requires forall k :: 0 <= k < |open| ==> open[k] in b && open[k] !in a
    requires forall k :: 0 <= k < |close| ==> close[k] in b && close[k] !in a
    requires |body| > 0
    requires body[0] !in a && body[0] !in b
    requires body[|body| - 1] !in a && body[|body| - 1] !in b
    ensures StripChars(StripChars(lead + open + body + close + trail, a), b) == body
  {
    var fenced := open + body + close;
    assert lead + open + body + close + trail == lead + fenced + trail;
    assert fenced[0] !in a by {
      if |open| > 0 { assert fenced[0] == open[0]; } else { assert fenced[0] == body[0]; }
    }
    assert fenced[|fenced| - 1] !in a by {
      if |close| > 0 { assert fenced[|fenced| - 1] == close[|close| - 1]; }
      else { assert fenced[|fenced| - 1] == body[|body| - 1]; }
    }
    StripCharsUnwraps(lead, fenced, trail, a);
    StripCharsUnwraps(open, body, close, b);
  }

  /** Stripping keeps a `json` language tag after three backticks when the
      first set holds neither the backtick nor `n`, and the second set holds
      the backtick but neither `j` nor `n`. */
  lemma StripTwiceKeepsTag(s: string, a: set<char>, b: set<char>)
    requires |s| >= 7 && s[..7] == "```json"
    requires '`' !in a && 'n' !in a && '`' in b && 'j' !in b && 'n' !in b
    ensures var r := StripChars(StripChars(s, a), b);
      |r| >= 4 && r[..4] == "json"
  {
    assert s[0] == '`' && s[6] == 'n';
    var i1, j1 := StripCharsIsSlice(s, a);
    assert i1 == 0;
    assert j1 >= 7;
    var y := s[..j1];
    assert y[..7] == "```json";
    assert y[0] == '`' && y[1] == '`' && y[2] == '`' && y[3] == 'j' && y[6] == 'n';
    var i2, j2 := StripCharsIsSlice(y, b);
    assert i2 == 3;
    assert j2 >= 7;
    assert y[i2..j2][..4] == y[3..7];
  }
}

=== FILE: report_schema.dfy ===
/** The shape the AI review must have: `PB_builder` nested inside
    `Output_Builder`, as a datatype, a validator over decoded JSON (what
    `model_validate` accepts from JSON input) and `model_dump`, its inverse. */
module ReportSchema {
  import opened Wrappers
  import opened JsonValues

  /** `PB_builder`. */
  datatype Bottlenecks = Bottlenecks(
    slowestRequests: seq<string>,
    largeTransfers: seq<string>,
    redirectChains: seq<string>)

  /** `Output_Builder`. */
  datatype Report = Report(
    loadFailures: seq<string>,
    redirects: seq<string>,
    performanceBottlenecks: Bottlenecks,
    overallSlowness: string,
    securityConcerns: seq<string>,
    cdnIssues: seq<string>,
    suggests: string)

  const BottleneckKeys: set<string> := {"slowest_requests", "large_transfers", "redirect_chains"}

  const ReportKeys: set<string> := {
    "load_failures", "redirects", "performance_bottlenecks", "overall_slowness",
    "security_concerns", "cdn_issues", "suggests"
  }

  /** A JSON value that `list[str]` accepts: an array of strings. */
  predicate IsStrList(j: Json) {
    j.JArr? && forall i :: 0 <= i < |j.items| ==> j.items[i].JStr?
  }

  /** The strings of an array of JSON strings, `None` when an item is not a
      string. */
  function Strings(items: seq<Json>): (r: Option<seq<string>>)
    ensures r.Some? <==> forall i :: 0 <= i < |items| ==> items[i].JStr?
    ensures r.Some? ==> |r.value| == |items|
    ensures r.Some? ==> forall i :: 0 <= i < |items| ==> r.value[i] == items[i].s
  {
    if |items| == 0 then Some([])
    else if !items[|items| - 1].JStr? then None
    else
      var init :- Strings(items[..|items| - 1]);
      Some(init + [items[|items| - 1].s])
  }

  /** A list of strings as a JSON array. */
  function StrArray(ss: seq<string>): (j: Json)
    ensures j.JArr? && |j.items| == |ss|
    ensures forall i :: 0 <= i < |ss| ==> j.items[i] == JStr(ss[i])
  {
    JArr(seq(|ss|, i requires 0 <= i < |ss| => JStr(ss[i])))
  }

  /** `list[str]` validation of one value. */
  function StrList(j: Json): (r: Option<seq<string>>)
    ensures r.Some? <==> IsStrList(j)
    ensures r.Some? ==> StrArray(r.value) == j
  {
    if !j.JArr? then None
    else
      var ss :- Strings(j.items);
      assert StrArray(ss).items == j.items;
      Some(ss)
  }

  /** `list[str]` validation undoes `StrArray`. */
  lemma StrListRoundTrip(ss: seq<string>)
    ensures StrList(StrArray(ss)) == Some(ss)
  {
    var v := StrList(StrArray(ss)).value;
    assert forall i :: 0 <= i < |ss| ==> JStr(v[i]) == StrArray(ss).items[i];
    assert v == ss;
  }

  /** The `list[str]` field `key` of a dictionary. */
  function ListField(m: map<string, Json>, key: string): Option<seq<string>> {
    if key in m then StrList(m[key]) else None
  }

  /** The `str` field `key` of a dictionary. */
  function TextField(m: map<string, Json>, key: string): Option<string> {
    if key in m && m[key].JStr? then Some(m[key].s) else None
  }

  /** `PB_builder.model_validate`. */
  function ValidateBottlenecks(j: Json): Option<Bottlenecks> {
    if !j.JObj? then None
    else
      var slowest :- ListField(j.fields, "slowest_requests");
      var large :- ListField(j.fields, "large_transfers");
      var chains :- ListField(j.fields, "redirect_chains");
      Some(Bottlenecks(slowest, large, chains))
  }

  /** `Output_Builder.model_validate`: every declared field must be present
      with the declared type; undeclared keys are ignored. */
  function Validate(j: Json): Option<Report> {
    if !j.JObj? then None
    else
      var failures :- ListField(j.fields, "load_failures");
      var redirects :- ListField(j.fields, "redirects");
      var bottlenecks :- if "performance_bottlenecks" in j.fields
        then ValidateBottlenecks(j.fields["performance_bottlenecks"]) else None;
      var slowness :- TextField(j.fields, "overall_slowness");
      var security :- ListField(j.fields, "security_concerns");
      var cdn :- ListField(j.fields, "cdn_issues");
      var suggests :- TextField(j.fields, "suggests");
      Some(Report(failures, redirects, bottlenecks, slowness, security, cdn, suggests))
  }

  /** `PB_builder.model_dump`. */
  function DumpBottlenecks(b: Bottlenecks): (j: Json)
    ensures j.JObj? && j.fields.Keys == BottleneckKeys
  {
    JObj(map[
      "slowest_requests" := StrArray(b.slowestRequests),
      "large_transfers" := StrArray(b.largeTransfers),
      "redirect_chains" := StrArray(b.redirectChains)])
  }

  /** `Output_Builder.model_dump`: one key per declared field, the nested
      model dumped to a dictionary too. */
  function Dump(r: Report): (j: Json)
    ensures j.JObj? && j.fields.Keys == ReportKeys
  {
    JObj(map[
      "load_failures" := StrArray(r.loadFailures),
      "redirects" := StrArray(r.redirects),
      "performance_bottlenecks" := DumpBottlenecks(r.performanceBottlenecks),
      "overall_slowness" := JStr(r.overallSlowness),
      "security_concerns" := StrArray(r.securityConcerns),
      "cdn_issues" := StrArray(r.cdnIssues),
      "suggests" := JStr(r.suggests)])
  }

  /** The nested shape, written out field by field. */
  predicate BottlenecksConform(j: Json) {
    && j.JObj?
    && "slowest_requests" in j.fields && IsStrList(j.fields["slowest_requests"])
    && "large_transfers" in j.fields && IsStrList(j.fields["large_transfers"])
    && "redirect_chains" in j.fields && IsStrList(j.fields["redirect_chains"])
  }

  /** The report shape, written out field by field. */
  predicate Conforms(j: Json) {
    && j.JObj?
    && "load_failures" in j.fields && IsStrList(j.fields["load_failures"])
    && "redirects" in j.fields && IsStrList(j.fields["redirects"])
    && "performance_bottlenecks" in j.fields && BottlenecksConform(j.fields["performance_bottlenecks"])
    && "overall_slowness" in j.fields && j.fields["overall_slowness"].JStr?
    && "security_concerns" in j.fields && IsStrList(j.fields["security_concerns"])
    && "cdn_issues" in j.fields && IsStrList(j.fields["cdn_issues"])
    && "suggests" in j.fields && j.fields["suggests"].JStr?
  }

  /** A `list[str]` field validates exactly when it is present and an
      array of strings. */
  lemma ListFieldIff(m: map<string, Json>, key: string)
    ensures ListField(m, key).Some? <==> key in m && IsStrList(m[key])
  {
  }

  lemma BottlenecksAcceptsIff(j: Json)
    ensures ValidateBottlenecks(j).Some? <==> BottlenecksConform(j)
  {
    if j.JObj? {
      ListFieldIff(j.fields, "slowest_requests");
      ListFieldIff(j.fields, "large_transfers");
      ListFieldIff(j.fields, "redirect_chains");
    }
  }

  /** Validation accepts exactly the values of the declared shape. */
  lemma ValidateAcceptsIff(j: Json)
    ensures Validate(j).Some? <==> Conforms(j)
    ensures ValidateBottlenecks(j).Some? <==> BottlenecksConform(j)
  {
    BottlenecksAcceptsIff(j);
    if j.JObj? {
      var f := j.fields;
      ListFieldIff(f, "load_failures");
      ListFieldIff(f, "redirects");
      ListFieldIff(f, "security_concerns");
      ListFieldIff(f, "cdn_issues");
      if "performance_bottlenecks" in f {
        BottlenecksAcceptsIff(f["performance_bottlenecks"]);
      }
    }
  }

  /** The declared fields of a conforming value, the nested ones included,
      and nothing else. */
  function Declared(j: Json): Json
    requires Conforms(j)
  {
    var f := j.fields;
    var pb := f["performance_bottlenecks"].fields;
    JObj(map[
      "load_failures" := f["load_failures"],
      "redirects" := f["redirects"],
      "performance_bottlenecks" := JObj(map[
        "slowest_requests" := pb["slowest_requests"],
        "large_transfers" := pb["large_transfers"],
        "redirect_chains" := pb["redirect_chains"]]),
      "overall_slowness" := f["overall_slowness"],
      "security_concerns" := f["security_concerns"],
      "cdn_issues" := f["cdn_issues"],
      "suggests" := f["suggests"]])
  }

  /** A present `list[str]` field validates to the strings it holds. */
  lemma ListFieldDumps(m: map<string, Json>, key: string)
    requires key in m && IsStrList(m[key])
    ensures ListField(m, key).Some? && StrArray(ListField(m, key).value) == m[key]
  {
  }

  /** The nested model of a conforming value, dumped, is its declared part. */
  lemma BottlenecksThenDump(j: Json)
    requires BottlenecksConform(j)
    ensures ValidateBottlenecks(j).Some?
    ensures DumpBottlenecks(ValidateBottlenecks(j).value) == JObj(map[
      "slowest_requests" := j.fields["slowest_requests"],
      "large_transfers" := j.fields["large_transfers"],
      "redirect_chains" := j.fields["redirect_chains"]])
  {
    ListFieldDumps(j.fields, "slowest_requests");
    ListFieldDumps(j.fields, "large_transfers");
    ListFieldDumps(j.fields, "redirect_chains");
  }

  /** Validation of a conforming value, field by field. */
  lemma ValidateFields(j: Json)
    requires Conforms(j)
    ensures Validate(j) == Some(Report(
      ListField(j.fields, "load_failures").value,
      ListField(j.fields, "redirects").value,
      ValidateBottlenecks(j.fields["performance_bottlenecks"]).value,
      j.fields["overall_slowness"].s,
      ListField(j.fields, "security_concerns").value,
      ListField(j.fields, "cdn_issues").value,
      j.fields["suggests"].s))
  {
    ValidateAcceptsIff(j.fields["performance_bottlenecks"]);
  }

  /** Dumping a validated report gives back exactly the declared fields of
      the input, the nested model's included: undeclared keys are dropped
      and nothing else changes. */
  lemma ValidateThenDump(j: Json)
    requires Conforms(j)
    ensures Validate(j).Some?
    ensures Dump(Validate(j).value) == Declared(j)
  {
    var f := j.fields;
    ValidateFields(j);
    BottlenecksThenDump(f["performance_bottlenecks"]);
    ListFieldDumps(f, "load_failures");
    ListFieldDumps(f, "redirects");
    ListFieldDumps(f, "security_concerns");
    ListFieldDumps(f, "cdn_issues");
  }

  /** The nested model's `model_validate(model_dump(b))` gives `b` back. */
  lemma BottlenecksRoundTrip(b: Bottlenecks)
    ensures ValidateBottlenecks(DumpBottlenecks(b)) == Some(b)
  {
    StrListRoundTrip(b.slowestRequests);
    StrListRoundTrip(b.largeTransfers);
    StrListRoundTrip(b.redirectChains);
  }

  /** A dumped list field validates to the list. */
  lemma DumpedListField(m: map<string, Json>, key: string, ss: seq<string>)
    requires key in m && m[key] == StrArray(ss)
    ensures ListField(m, key) == Some(ss)
  {
    StrListRoundTrip(ss);
  }

  /** `model_validate(model_dump(r))` gives `r` back. */
  lemma DumpValidateRoundTrip(r: Report)
    ensures Validate(Dump(r)) == Some(r)
  {
    var f := Dump(r).fields;
    BottlenecksRoundTrip(r.performanceBottlenecks);
    DumpedListField(f, "load_failures", r.loadFailures);
    DumpedListField(f, "redirects", r.redirects);
    DumpedListField(f, "security_concerns", r.securityConcerns);
    DumpedListField(f, "cdn_issues", r.cdnIssues);
  }

  /** An undeclared key changes nothing about validation. */
  lemma ExtraKeyIgnored(m: map<string, Json>, key: string, v: Json)
    requires key !in ReportKeys
    ensures Validate(JObj(m[key := v])) == Validate(JObj(m))
  {
    var m' := m[key := v];
    assert forall k :: k in ReportKeys ==> (k in m' <==> k in m) && (k in m ==> m'[k] == m[k]);
  }

  /** `scheme.model_validate(data).model_dump()`, with `None` for the
      validation error the caller catches. */
  function ValidateAndDump(j: Json): (d: Option<Json>)
    ensures d.Some? <==> Conforms(j)
    ensures d.Some? ==> Conforms(d.value) && Validate(d.value) == Validate(j)
    ensures d.Some? ==> d.value == Declared(j)
  {
    ValidateAcceptsIff(j);
    match Validate(j)
    case None => None
    case Some(r) =>
      ValidateThenDump(j);
      DumpValidateRoundTrip(r);
      ValidateAcceptsIff(Dump(r));
      Some(Dump(r))
  }
}

=== FILE: traverse.dfy ===
/** Applying a fallible step to every element of a sequence in order, as a
    Python `for` loop does when any iteration may raise. */
module Traverse {
  import opened Wrappers

  /** The results of `f` on every element, or the first failure. */
  function MapResult<A, B, E>(xs: seq<A>, f: A -> Result<B, E>): Result<seq<B>, E> {
    if |xs| == 0 then Success([])
    else
      var init :- MapResult(xs[..|xs| - 1], f);
      var y :- f(xs[|xs| - 1]);
      Success(init + [y])
  }

  /** The traversal succeeds exactly when every step does, and then holds
      one result per element, in order; otherwise it reports the failure of
      the first element that fails. */
  lemma {:induction false} MapResultSpec<A, B, E>(xs: seq<A>, f: A -> Result<B, E>)
    ensures MapResult(xs, f).Success? <==> forall i :: 0 <= i < |xs| ==> f(xs[i]).Success?
    ensures MapResult(xs, f).Success? ==>
      && |MapResult(xs, f).value| == |xs|
      && forall i :: 0 <= i < |xs| ==> MapResult(xs, f).value[i] == f(xs[i]).value
    ensures MapResult(xs, f).Failure? ==>
      exists k :: 0 <= k < |xs|
        && f(xs[k]) == Failure(MapResult(xs, f).error)
        && forall i :: 0 <= i < k ==> f(xs[i]).Success?
  {
    if |xs| > 0 {
      var init := xs[..|xs| - 1];
      MapResultSpec(init, f);
      assert forall i :: 0 <= i < |init| ==> init[i] == xs[i];
      if MapResult(init, f).Failure? {
        var k :| 0 <= k < |init|
          && f(init[k]) == Failure(MapResult(init, f).error)
          && forall i :: 0 <= i < k ==> f(init[i]).Success?;
        assert f(xs[k]) == Failure(MapResult(xs, f).error);
      } else if f(xs[|xs| - 1]).Failure? {
        assert f(xs[|xs| - 1]) == Failure(MapResult(xs, f).error);
      }
    }
  }

  /** One more successful step extends a successful traversal. */
  lemma MapResultStep<A, B, E>(xs: seq<A>, k: nat, f: A -> Result<B, E>)
    requires k < |xs|
    requires MapResult(xs[..k], f).Success? && f(xs[k]).Success?
    ensures MapResult(xs[..k + 1], f) == Success(MapResult(xs[..k], f).value + [f(xs[k]).value])
  {
    assert xs[..k + 1][..k] == xs[..k];
  }

  /** Once a prefix fails, the whole traversal fails the same way. */
  lemma {:induction false} MapResultFailureSticks<A, B, E>(xs: seq<A>, k: nat, f: A -> Result<B, E>)
    requires k <= |xs|
    requires MapResult(xs[..k], f).Failure?
    ensures MapResult(xs, f) == Failure(MapResult(xs[..k], f).error)
  {
    if k < |xs| {
      var init := xs[..|xs| - 1];
      assert init[..k] == xs[..k];
      MapResultFailureSticks(init, k, f);
    } else {
      assert xs[..k] == xs;
    }
  }

  /** The first failing step decides the failure of the whole traversal. */
  lemma MapResultFailsAt<A, B, E>(xs: seq<A>, k: nat, f: A -> Result<B, E>)
    requires k < |xs|
    requires MapResult(xs[..k], f).Success? && f(xs[k]).Failure?
    ensures MapResult(xs, f) == Failure(f(xs[k]).error)
  {
    assert xs[..k + 1][..k] == xs[..k];
    MapResultFailureSticks(xs, k + 1, f);
  }

  /** Two successful steps give their two results. */
  lemma MapResultTwo<A, B, E>(x: A, y: A, f: A -> Result<B, E>)
    requires f(x).Success? && f(y).Success?
    ensures MapResult([x, y], f) == Success([f(x).value, f(y).value])
  {
    assert [x][..0] == [];
    assert MapResult([x][..0], f) == Success([]);
    assert [] + [f(x).value] == [f(x).value];
    assert MapResult([x], f) == Success([f(x).value]);
    assert [x, y][..1] == [x];
    assert [f(x).value] + [f(y).value] == [f(x).value, f(y).value];
  }
}

=== FILE: wrappers.dfy ===
/** Failure-compatible Option and Result types, used for Python's `None`
    and for the exceptions the modelled code can raise. */
module Wrappers {

  datatype Option<+T> = None | Some(value: T) {
    predicate IsFailure() { None? }

    function PropagateFailure<U>(): Option<U>
      requires None?
    {
      None
    }

    function Extract(): T
      requires Some?
    {
      value
    }

    /** The value, or `default` when there is none. */
    function GetOr(default: T): T {
      match this
      case Some(v) => v
      case None => default
    }
  }

  datatype Result<+R, +E> = Success(value: R) | Failure(error: E) {
    predicate IsFailure() { Failure? }

    function PropagateFailure<U>(): Result<U, E>
      requires Failure?
    {
      Failure(error)
    }

    function Extract(): R
      requires Success?
    {
      value
    }
  }
}
